=== FILE: README.md ===
# Warehouse inventory model

A Dafny model of the core of a small warehouse-inventory application (a
JavaFX front end over MySQL): the two entities, products (`Prodotti`) and
stock movements (`Movimenti`); the two repositories that validate and store
them; the stock-adjustment rules inside the overview, movement-dialog and
product-form controllers; the statistics aggregation; and the CSV export.

The MySQL store is a value: two sequences (the `prodotti` and `movimenti`
tables in storage order) and the two auto-increment counters. Its
well-formedness invariant (positive unique product ids, unique product
names, positive unique movement ids below the counter, every movement
referring to a stored product and carrying a date) is preserved by every
write. `null` is `Option.None`; `DAOException` is `Failure(DaoError(message))`.
The clock (`LocalDate.now()`) is the parameter `today`, and
`Double.toString` the parameter `showPrice`.

Modules, one per file: `Wrappers`, `Text` (the `String` operations used),
`Calendar` (ISO 8601 dates as `LocalDate` handles them), `Sequences`,
`ProductModel`/`MovementModel` (entities.dfy), `Database`,
`ProductRepository`, `MovementRepository`, `MovementDialog`
(`ScaricoDialogController`), `Overview` (`ProdottiOverviewController`),
`ProductForm` (`ProdottiEditDialogController`), `Statistics`
(`MovimentiStatisticsController`), `Export` (`Esportazione`).

Where the store's reaction is not in the Java code (a duplicate name, a
movement for a missing product, a `null` date spliced into the `INSERT`),
the model follows the schema's unique and foreign-key constraints and the
message format of the repositories' `executeUpdate`: the movement repository
prefixes MySQL's own message with `In executeUpdate(): `, the product
repository with `In executeUpdateID(): `.

## Model

| member | source | states |
|---|---|---|
| ProductModel.NewProduct | src/it/unicas/project/template/address/model/Prodotti.java:97-107 | a `null` id becomes -1, a present one is kept; every other argument is stored unchanged |
| ProductModel.DefaultProduct | src/it/unicas/project/template/address/model/Prodotti.java:79-82 | id -1, empty name and description, zero stock, threshold and prices; the default product is critical (0 <= 0) |
| ProductModel.SetId | src/it/unicas/project/template/address/model/Prodotti.java:126-127 | changes the id and nothing else: putting the old id back gives the original record |
| ProductModel.SetName | src/it/unicas/project/template/address/model/Prodotti.java:155-156 | changes the name and nothing else |
| ProductModel.SetDescription | src/it/unicas/project/template/address/model/Prodotti.java:184-185 | changes the description and nothing else |
| ProductModel.SetQuantity | src/it/unicas/project/template/address/model/Prodotti.java:213-214 | changes the stock and nothing else; the result is critical iff the new stock is at most the threshold |
| ProductModel.SetMinStock | src/it/unicas/project/template/address/model/Prodotti.java:242-243 | changes the threshold and nothing else; the result is critical iff the stock is at most the new threshold |
| ProductModel.SetPurchasePrice | src/it/unicas/project/template/address/model/Prodotti.java:271-272 | changes the purchase price and nothing else; criticality is unaffected |
| ProductModel.SetSalePrice | src/it/unicas/project/template/address/model/Prodotti.java:300-301 | changes the sale price and nothing else; criticality is unaffected |
| MovementModel.NewMovement | src/it/unicas/project/template/address/model/Movimenti.java:88-98 | a `null` id becomes -1; product id, kind, quantity, date and note are stored unchanged |
| MovementModel.DefaultMovement | src/it/unicas/project/template/address/model/Movimenti.java:72-75 | id and product id -1, empty kind and note, quantity 0, date today |
| MovementModel.SetId | src/it/unicas/project/template/address/model/Movimenti.java:116-117 | changes the id and nothing else |
| MovementModel.SetProductId | src/it/unicas/project/template/address/model/Movimenti.java:144-145 | changes the product id and nothing else |
| MovementModel.SetKind | src/it/unicas/project/template/address/model/Movimenti.java:172-173 | changes the kind and nothing else |
| MovementModel.SetQuantity | src/it/unicas/project/template/address/model/Movimenti.java:200-201 | changes the quantity and nothing else |
| MovementModel.SetDate | src/it/unicas/project/template/address/model/Movimenti.java:228-229 | changes the date and nothing else |
| MovementModel.SetNote | src/it/unicas/project/template/address/model/Movimenti.java:256-257 | changes the note and nothing else |
| Calendar.LengthOfMonth | src/it/unicas/project/template/address/view/MovimentiStatisticsController.java:112 | 31 days for months 1, 3, 5, 7, 8, 10, 12, 30 for 4, 6, 9, 11; February has 29 days exactly in Gregorian leap years |
| Calendar.MinusOneMonth | src/it/unicas/project/template/address/view/MovimentiStatisticsController.java:111 | the previous month of the same year, January going to December of the year before; the day is clamped to the shorter month |
| Calendar.FormatDateRoundTrip | src/it/unicas/project/template/address/util/Esportazione.java:163 | for years 1 to 9999 the `yyyy-MM-dd` text reads back as the date it was printed from |
| Text.Trim | src/it/unicas/project/template/address/view/ProdottiEditDialogController.java:175-176 | the result is a slice of the input with only trimmed characters cut on either side, and neither starts nor ends with one |
| Text.TrimEmptyIffBlank | src/it/unicas/project/template/address/view/ProdottiEditDialogController.java:236-243 | `trim().isEmpty()` holds exactly for texts made only of characters up to U+0020 |
| Text.RemoveChar | src/it/unicas/project/template/address/util/Esportazione.java:179 | the removed character no longer occurs; every other character keeps its count |
| Text.RemoveCharAppend | src/it/unicas/project/template/address/util/Esportazione.java:179 | removing from a concatenation is removing from each part and concatenating, so the kept characters stay in order |
| Text.RemoveCharIsFilter | src/it/unicas/project/template/address/util/Esportazione.java:179 | the result is exactly the characters other than the removed one, in their original order |
| Text.RemoveCharUnchangedIffAbsent | src/it/unicas/project/template/address/util/Esportazione.java:179 | removing a character changes the text iff it occurs in it |
| Text.FoldsToAsciiLetter | src/it/unicas/project/template/address/view/MovimentiStatisticsController.java:133-135 | a character folds onto an ASCII letter iff it is one of that letter's cases, or `İ`/`ı` for `i`, the long s for `s`, the Kelvin sign for `k`: the characters `equalsIgnoreCase` matches with it |
| Text.SameFoldIffCaseVariant | src/it/unicas/project/template/address/model/dao/mysql/MovimentiDAOMySQLImpl.java:164 | against any ASCII character, two characters compare equal ignoring case iff the other is one of its case variants |
| Text.ParseNatToString | src/it/unicas/project/template/address/view/MovimentiStatisticsController.java:119-120 | `Integer.parseInt(String.valueOf(n))` gives `n` back |
| ProductRepository.NoFilter | src/it/unicas/project/template/address/model/dao/mysql/ProdottiDAOMySQLImpl.java:69-71 | the prototype used for a missing filter: id -1, empty texts, -1 stock and threshold, zero prices |
| ProductRepository.CompileFilter | src/it/unicas/project/template/address/model/dao/mysql/ProdottiDAOMySQLImpl.java:73-101 | the critical clause is present iff the flag is set |
| ProductRepository.NameClauseMeaning | src/it/unicas/project/template/address/model/dao/mysql/ProdottiDAOMySQLImpl.java:75-77 | the name clause is added for a non-blank filter name, and then the row's name must start with the untrimmed filter text |
| ProductRepository.DescriptionClauseMeaning | src/it/unicas/project/template/address/model/dao/mysql/ProdottiDAOMySQLImpl.java:79-81 | the same rule for the description |
| ProductRepository.CompileFilterMeaning | src/it/unicas/project/template/address/model/dao/mysql/ProdottiDAOMySQLImpl.java:73-101 | a row satisfies the compiled conjunction iff every populated field matches (prefix for texts, equality for stock, threshold above -1 and prices above 0) and, with the flag, the row is critical |
| ProductRepository.Select | src/it/unicas/project/template/address/model/dao/mysql/ProdottiDAOMySQLImpl.java:68-110 | the result holds rows of the table only, exactly the admitted ones, and with the flag only critical rows |
| ProductRepository.SelectWithoutFilterIsTable | src/it/unicas/project/template/address/model/dao/mysql/ProdottiDAOMySQLImpl.java:69-73 | no filter and no flag returns the whole table in storage order |
| ProductRepository.MoreClausesFewerRows | src/it/unicas/project/template/address/model/dao/mysql/ProdottiDAOMySQLImpl.java:73-101 | adding clauses to the conjunction never adds rows |
| ProductRepository.SelectNarrows | src/it/unicas/project/template/address/model/dao/mysql/ProdottiDAOMySQLImpl.java:73-101 | a filter whose clauses include another's selects a sub-multiset of its rows |
| ProductRepository.CriticalFlagNarrows | src/it/unicas/project/template/address/model/dao/mysql/ProdottiDAOMySQLImpl.java:87-89 | setting the critical flag never enlarges the result |
| ProductRepository.Validate | src/it/unicas/project/template/address/model/dao/mysql/ProdottiDAOMySQLImpl.java:229-237 | a product passes iff stock, threshold and prices are non-negative and name and description are present; any negative count or price fails with the numeric message, and only then a missing text with the null message |
| ProductRepository.Insert | src/it/unicas/project/template/address/model/dao/mysql/ProdottiDAOMySQLImpl.java:160-177 | validation first; a duplicate name is refused with MySQL's message; otherwise exactly one row is appended under a fresh generated id, which is returned, and the store stays well formed |
| ProductRepository.ReplaceById | src/it/unicas/project/template/address/model/dao/mysql/ProdottiDAOMySQLImpl.java:130-135 | every row with the product's id is overwritten with it, every other row is kept, the length is unchanged |
| ProductRepository.Update | src/it/unicas/project/template/address/model/dao/mysql/ProdottiDAOMySQLImpl.java:127-144 | validation first; a name taken by another row is refused; otherwise the matching row is overwritten and nothing else changes; an absent id changes nothing and succeeds |
| ProductRepository.DeleteMovementsOf | src/it/unicas/project/template/address/model/dao/mysql/ProdottiDAOMySQLImpl.java:198-207 | exactly the movements of other products remain, in order; the products and both key counters are untouched |
| ProductRepository.DeleteProductRow | src/it/unicas/project/template/address/model/dao/mysql/ProdottiDAOMySQLImpl.java:199-215 | the product row is refused with the foreign-key message iff a movement still refers to it; otherwise exactly the other products remain, in order, and the movements and counters are untouched |
| ProductRepository.Delete | src/it/unicas/project/template/address/model/dao/mysql/ProdottiDAOMySQLImpl.java:193-216 | a missing product is refused with its message; otherwise the product's movements go first, then the product; every other row is kept in order, both key counters are unchanged so no id is handed out again, and the store stays well formed |
| MovementRepository.Validate | src/it/unicas/project/template/address/model/dao/mysql/MovimentiDAOMySQLImpl.java:151-167 | the four checks in order (null, product id, kind, quantity), the first failing one deciding the message, a negative quantity and a zero quantity without the initial-load note both failing with the quantity message |
| MovementRepository.InitialLoadIgnoresCase | src/it/unicas/project/template/address/model/dao/mysql/MovimentiDAOMySQLImpl.java:164 | a note counts as the initial-load note iff it has the length of `Carico iniziale` and every character is a case variant of the one in its place; a `null` note never counts |
| MovementRepository.StoredNote | src/it/unicas/project/template/address/model/dao/mysql/MovimentiDAOMySQLImpl.java:78 | a present note is stored unchanged; a `null` one is stored as the text `null` |
| MovementRepository.Insert | src/it/unicas/project/template/address/model/dao/mysql/MovimentiDAOMySQLImpl.java:69-88 | validation first; a missing date or an unknown product is refused by the storage; otherwise exactly one row is appended under the next key, 0 is returned, the products are untouched and the store stays well formed |
| MovementRepository.InsertByDate | src/it/unicas/project/template/address/model/dao/mysql/MovimentiDAOMySQLImpl.java:126 | inserting one row yields a permutation of the rows plus it |
| MovementRepository.InsertByDateNewestFirst | src/it/unicas/project/template/address/model/dao/mysql/MovimentiDAOMySQLImpl.java:126 | inserting into a newest-first listing keeps it newest first |
| MovementRepository.SortNewestFirst | src/it/unicas/project/template/address/model/dao/mysql/MovimentiDAOMySQLImpl.java:126 | the result is a permutation of the input ordered by non-increasing date |
| MovementRepository.Select | src/it/unicas/project/template/address/model/dao/mysql/MovimentiDAOMySQLImpl.java:122-135 | every stored movement, each exactly once, ordered newest first |
| MovementRepository.SelectIgnoresFilter | src/it/unicas/project/template/address/model/dao/mysql/MovimentiDAOMySQLImpl.java:123-126 | the prototype and the flag do not affect the result |
| MovementRepository.SelectStartsWithNewest | src/it/unicas/project/template/address/model/dao/mysql/MovimentiDAOMySQLImpl.java:126 | no stored movement is newer than the first one listed |
| MovementRepository.Update | src/it/unicas/project/template/address/model/dao/mysql/MovimentiDAOMySQLImpl.java:105-108 | succeeds and leaves the store unchanged |
| MovementRepository.Delete | src/it/unicas/project/template/address/model/dao/mysql/MovimentiDAOMySQLImpl.java:95-98 | succeeds and leaves the store unchanged |
| MovementDialog.QuantityErrors | src/it/unicas/project/template/address/view/ScaricoDialogController.java:196-206 | no message iff the quantity text is `\d+`, positive, and for the exact kind `SCARICO` at most the stock; malformed text gives exactly its message |
| MovementDialog.ValidateAsWritten | src/it/unicas/project/template/address/view/ScaricoDialogController.java:193-228 | a missing date always ends in an exception; with a date the outcome is never one |
| MovementDialog.NullDateCrashes | src/it/unicas/project/template/address/view/ScaricoDialogController.java:208-214 | whatever the other fields hold, a missing date crashes the check as written, while the corrected check reports the quantity messages followed by the missing-date message |
| MovementDialog.DateErrors | src/it/unicas/project/template/address/view/ScaricoDialogController.java:208-214 | no message iff a date is present and not after today; a missing date gives exactly its message |
| MovementDialog.Validate | src/it/unicas/project/template/address/view/ScaricoDialogController.java:193-228 | never crashes; accepts iff every field is acceptable; otherwise reports the quantity messages followed by the date messages |
| MovementDialog.ValidateAgreesWhenDated | src/it/unicas/project/template/address/view/ScaricoDialogController.java:208-214 | with a date present the code as written and the corrected check give the same outcome |
| MovementDialog.AcceptedScaricoKeepsStock | src/it/unicas/project/template/address/view/ScaricoDialogController.java:203-205 | an accepted `SCARICO` never takes more than the stock |
| MovementDialog.DialogAdjust | src/it/unicas/project/template/address/view/ScaricoDialogController.java:178-186 | `Carico` adds, `Scarico` subtracts (case-sensitive), any other kind, `SCARICO` included, leaves the stock |
| MovementDialog.TitleCaseScaricoSkipsGuard | src/it/unicas/project/template/address/view/ScaricoDialogController.java:178-205 | `Scarico` of 5 against a stock of 2 is accepted and the dialog's adjustment takes the stock to -3 |
| MovementDialog.HandleOk | src/it/unicas/project/template/address/view/ScaricoDialogController.java:148-162 | on acceptable input the movement gets exactly the product id, kind, quantity, date and note, and the product only the dialog's adjustment; otherwise nothing changes |
| Overview.OverviewAdjust | src/it/unicas/project/template/address/view/ProdottiOverviewController.java:433-439 | `CARICO` adds, `SCARICO` subtracts (case-sensitive), any other kind leaves the stock |
| Overview.MoveFlow | src/it/unicas/project/template/address/view/ProdottiOverviewController.java:430-448 | the movement is inserted first; a failed insert changes nothing; after it the product is written with the overview's adjustment, the flow succeeds iff that write does, ends in the store it produced, and otherwise reports its error and keeps the movement; the store stays well formed |
| Overview.StockChangesExactlyOnce | src/it/unicas/project/template/address/view/ProdottiOverviewController.java:433-439 | composed with the dialog's own adjustment, each of `CARICO`, `Carico`, `SCARICO`, `Scarico` moves the stock exactly once by the quantity |
| Overview.DialogOutputPassesValidation | src/it/unicas/project/template/address/view/ProdottiOverviewController.java:431 | the movement the dialog fills in for a stored product and a non-empty kind passes movement validation |
| Overview.AcceptedScaricoStaysNonNegative | src/it/unicas/project/template/address/view/ProdottiOverviewController.java:433-439 | after an accepted `SCARICO` the overview's adjustment leaves a non-negative stock |
| Overview.InitialMovement | src/it/unicas/project/template/address/view/ProdottiOverviewController.java:348 | the initial movement carries the returned id, `CARICO`, the product's stock, today and the note `Carico iniziale` itself |
| Overview.InitialMovementValidIffPositiveId | src/it/unicas/project/template/address/view/ProdottiOverviewController.java:345-349 | for a valid product the initial movement passes validation iff the returned id is positive |
| Overview.InitialMovementAlwaysRecorded | src/it/unicas/project/template/address/view/ProdottiOverviewController.java:345-349 | in a well-formed store the initial movement of a freshly inserted product is always accepted |
| Overview.NewProductFlow | src/it/unicas/project/template/address/view/ProdottiOverviewController.java:340-364 | a failed product insert changes nothing; otherwise the product and its initial movement are both appended and the store stays well formed |
| Overview.DuplicateMessageRecognised | src/it/unicas/project/template/address/view/ProdottiOverviewController.java:358 | MySQL's duplicate-name message is classified as a duplicate name |
| Overview.InsertErrorClassification | src/it/unicas/project/template/address/view/ProdottiOverviewController.java:355-361 | a failed product insert is classified as a duplicate name iff the product itself was valid |
| Overview.ValidationMessagesNotDuplicate | src/it/unicas/project/template/address/view/ProdottiOverviewController.java:358-361 | neither validation message is classified as a duplicate name |
| Overview.Shortfall | src/it/unicas/project/template/address/view/ProdottiOverviewController.java:188-189 | the shortfall is non-negative iff the product is critical |
| Overview.CriticalRowsHaveShortfall | src/it/unicas/project/template/address/view/ProdottiOverviewController.java:188-192 | every row of the critical listing has a non-negative shortfall |
| Overview.ProductNameCell | src/it/unicas/project/template/address/view/ProdottiOverviewController.java:224-233 | the name of the first product with the id, or the id's decimal text when there is none |
| Overview.SearchPrototype | src/it/unicas/project/template/address/view/ProdottiOverviewController.java:375 | the search prototype is the repository's no-filter prototype |
| Overview.UnchangedSearchListsAll | src/it/unicas/project/template/address/view/ProdottiOverviewController.java:375-379 | searching with the untouched prototype lists the whole table |
| ProductForm.DecimalValue | src/it/unicas/project/template/address/view/ProdottiEditDialogController.java:199 | the value of a `\d+(\.\d+)?` text is non-negative |
| ProductForm.DecimalPositiveIffNonZeroDigit | src/it/unicas/project/template/address/view/ProdottiEditDialogController.java:272 | such a value is positive iff some digit is not zero |
| ProductForm.TextFieldErrors | src/it/unicas/project/template/address/view/ProdottiEditDialogController.java:236-243 | no message iff the field is not blank or the form is in search mode |
| ProductForm.CountFieldErrors | src/it/unicas/project/template/address/view/ProdottiEditDialogController.java:246-266 | no message iff the field is blank in search mode or its trimmed text is `\d+`; the negative-value branch is unreachable |
| ProductForm.PriceFieldErrors | src/it/unicas/project/template/address/view/ProdottiEditDialogController.java:269-287 | no message iff the field is blank in search mode or its trimmed text is `\d+(\.\d+)?` with a positive value |
| ProductForm.FormErrors | src/it/unicas/project/template/address/view/ProdottiEditDialogController.java:232-300 | no message iff every field is acceptable |
| ProductForm.TextValue | src/it/unicas/project/template/address/view/ProdottiEditDialogController.java:175-176 | a blank field becomes `null`; any other is stored trimmed and non-empty |
| ProductForm.CountValue | src/it/unicas/project/template/address/view/ProdottiEditDialogController.java:182-193 | a blank field becomes the sentinel; any other its non-negative parsed value |
| ProductForm.PriceValue | src/it/unicas/project/template/address/view/ProdottiEditDialogController.java:196-206 | a blank field becomes 0.0; any other its decimal value |
| ProductForm.HandleOk | src/it/unicas/project/template/address/view/ProdottiEditDialogController.java:171-211 | succeeds iff the form is acceptable; the id is kept and each field gets its mapped value (stock sentinel 0 in edit mode, -1 in search mode); otherwise the error text is returned |
| ProductForm.EditOutputPassesRepositoryValidation | src/it/unicas/project/template/address/view/ProdottiEditDialogController.java:171-211 | an accepted edit-mode form yields a product repository validation accepts, with positive prices |
| ProductForm.SearchBlankIffSentinel | src/it/unicas/project/template/address/view/ProdottiEditDialogController.java:175-206 | in search mode each field is blank iff the product holds its sentinel |
| ProductForm.BlankSearchListsAll | src/it/unicas/project/template/address/view/ProdottiEditDialogController.java:175-206 | an all-blank search is accepted, compiles to no clause and lists the whole table |
| ProductForm.DisplayForm | src/it/unicas/project/template/address/view/ProdottiEditDialogController.java:123-154 | texts shown with `null` as empty; in edit mode a new product shows empty numbers and a stored one its values; in search mode sentinels show as empty fields |
| ProductForm.CountRoundTrip | src/it/unicas/project/template/address/view/ProdottiEditDialogController.java:182-186 | a non-negative count shown as text reads back as itself |
| ProductForm.SearchCountRoundTrip | src/it/unicas/project/template/address/view/ProdottiEditDialogController.java:149-150 | in search mode a count of -1 or more survives display and OK |
| ProductForm.SearchDisplayAcceptable | src/it/unicas/project/template/address/view/ProdottiEditDialogController.java:149-152 | a sentinel-priced prototype is displayed as an acceptable search form whose counts read back |
| ProductForm.SearchNumbersRoundTrip | src/it/unicas/project/template/address/view/ProdottiEditDialogController.java:149-152 | OK on such an unchanged search form gives back the id, stock, threshold and zero prices |
| ProductForm.SearchPrototypeRoundTrip | src/it/unicas/project/template/address/view/ProdottiEditDialogController.java:149-152 | OK on the unchanged no-filter prototype gives it back with `null` texts |
| Statistics.KindsAreExclusive | src/it/unicas/project/template/address/view/MovimentiStatisticsController.java:133-137 | no kind feeds both series; the outbound series takes exactly the kinds equal to `SCARICO` ignoring case |
| Statistics.LongSKindIsOutbound | src/it/unicas/project/template/address/view/MovimentiStatisticsController.java:133-137 | `"ſCARICO"` feeds the outbound series only, as Java upper-cases the long s to `S` |
| Statistics.TargetMonth | src/it/unicas/project/template/address/view/MovimentiStatisticsController.java:107-111 | the month before the reference date, today standing in for a missing one; January maps to December of the previous year |
| Statistics.DaysIn | src/it/unicas/project/template/address/view/MovimentiStatisticsController.java:112 | the target month has 28 to 31 days |
| Statistics.DayInRange | src/it/unicas/project/template/address/view/MovimentiStatisticsController.java:130-131 | a movement of the target month lands in an existing bucket |
| Statistics.DayLabels | src/it/unicas/project/template/address/view/MovimentiStatisticsController.java:119-121 | one label per day, `1` to `N`, each reading back as its day number |
| Statistics.BumpBuckets | src/it/unicas/project/template/address/view/MovimentiStatisticsController.java:131-137 | one movement moves every bucket from its reference total to the reference total including that movement |
| Statistics.BumpSum | src/it/unicas/project/template/address/view/MovimentiStatisticsController.java:131-137 | one movement adds exactly its share of the month to the series total |
| Statistics.DailyTotals | src/it/unicas/project/template/address/view/MovimentiStatisticsController.java:125-139 | two series of the month's length; each bucket is the total of that day's movements of its kind; each series sums to the month's total of its kind |
| Statistics.MonthlyView | src/it/unicas/project/template/address/view/MovimentiStatisticsController.java:106-155 | labels and both series have the target month's length and are aligned; each series sums to the month's total of its kind |
| Statistics.ProductWithoutMovements | src/it/unicas/project/template/address/view/MovimentiStatisticsController.java:185-186 | a product without movements totals 0 |
| Statistics.TotalFor | src/it/unicas/project/template/address/view/MovimentiStatisticsController.java:188-196 | the two totals are those of the product's movements of each kind |
| Statistics.ProductTotals | src/it/unicas/project/template/address/view/MovimentiStatisticsController.java:177-198 | one name and one total per product, in list order, each equal to the product's reference total |
| Statistics.TotalsConserve | src/it/unicas/project/template/address/view/MovimentiStatisticsController.java:183-198 | with distinct ids the per-product totals add up to the total of every movement of a listed product; others are ignored |
| Export.SplitJoin | src/it/unicas/project/template/address/util/Esportazione.java:173-180 | a line whose fields hold no `;` splits back into exactly those fields |
| Export.SplitExtraSeparator | src/it/unicas/project/template/address/util/Esportazione.java:175-176 | a `;` inside an unsanitised field yields one column more than was written |
| Export.Show | src/it/unicas/project/template/address/util/Esportazione.java:131-132 | a present text prints as itself, a `null` one as `null` |
| Export.ExportProducts | src/it/unicas/project/template/address/util/Esportazione.java:124-138 | the seven-column header, then one line per product in list order |
| Export.ProductLineRoundTrip | src/it/unicas/project/template/address/util/Esportazione.java:129-137 | without `;` in the texts and prices a product line reads back as seven columns holding id, texts, stock and threshold |
| Export.NameOf | src/it/unicas/project/template/address/util/Esportazione.java:165-168 | an id no product has gives `null`, which the name column of the line prints as `null` (`Export.MovementLineRoundTrip`) |
| Export.NameOfDistinctIds | src/it/unicas/project/template/address/util/Esportazione.java:165-168 | with distinct ids each product's own name is the one the line's name column holds (`Export.MovementLineRoundTrip`) |
| Export.Lookup | src/it/unicas/project/template/address/util/Esportazione.java:175 | a missing key gives `null`, a present one its value |
| Export.NameMap | src/it/unicas/project/template/address/util/Esportazione.java:165-168 | its keys are the listed ids, and a lookup gives the name of the last product with the id |
| Export.DateField | src/it/unicas/project/template/address/util/Esportazione.java:171 | empty exactly for a missing date, never holds `;`, and a present date of years 1 to 9999 is `yyyy-MM-dd` text that parses back to it |
| Export.MovementFields | src/it/unicas/project/template/address/util/Esportazione.java:173-180 | six fields: the name and kind as printed, a date that parses back to the movement's date, and the note free of `;` |
| Export.NoteSanitisingIdempotent | src/it/unicas/project/template/address/util/Esportazione.java:179 | stripping the separator twice is stripping it once |
| Export.MovementLineRoundTrip | src/it/unicas/project/template/address/util/Esportazione.java:173-180 | with no `;` in the name and kind a movement line reads back as six columns: id, the name `NameOf` resolves, the kind, quantity, a date column that parses back to the movement's date, and the note with exactly its `;` removed and the other characters in order (unchanged when it had none) |
| Export.ExportMovements | src/it/unicas/project/template/address/util/Esportazione.java:156-187 | the six-column header, then one line per movement in order; the export completes iff every note is present, and otherwise stops at the first movement without one |

## Left out

- The JavaFX windows, alerts, chart widgets, titles, the Italian month name and the file chooser; the export yields the printed lines.
- SQL text, JDBC statements, result sets and logging. Filter text is assumed free of `'`, `%`, `_` and `\`, and prefix matching is case-sensitive: MySQL's `LIKE` wildcards, quoting and collations are not modelled (`ProductRepository.Select` requires `PlainFilter`). The same holds for the unique-name check of `ProductRepository.Insert` and `ProductRepository.Update`: names are compared exactly, while a case-insensitive collation would also refuse a name that differs only in case.
- The "no generated key" path of `executeUpdate` (returning -1): the store always hands out the next counter value.
- Text.EqualsIgnoreCase: folds ASCII, the Latin-1 pairs and the non-Latin-1 characters Java pairs with them (`İ`, `ı`, `ſ`, the Kelvin and Angstrom signs, `Ÿ`); the case pairs of other scripts (Greek, Cyrillic, `µ` with Greek mu, and so on) are compared exactly. No such character folds onto an ASCII letter (`Text.FoldsToAsciiLetter`), so comparisons with the ASCII kinds and the initial-load note are unaffected.
- `Integer.parseInt` overflow on long digit strings and 32-bit wrap-around of stock and statistics sums: integers are unbounded.
- Floating point: prices are exact reals, compared and sign-tested only; `Double.parseDouble` is the exact decimal value and `Double.toString` the parameter `showPrice`.
- ProductRepository.Validate: takes a present product; `verifyObject` dereferences the product before its own `null` test, so a `null` product ends in a null-dereference exception, not in the `DAOException` the later test was written for.
- Statistics.DailyTotals: requires every movement to have a date, as the loop dereferences it; movements read back from the store always have one.
- MovementRepository.Select: requires every stored movement to have a date, since reading a row without one fails; the store invariant guarantees it.
- The controllers' list fields for labels and product names are never cleared between calls; a fresh controller is loaded for every chart, so the model starts each view empty.
- Concurrency and atomicity: the multi-step flows are modelled step by step, with no interleaving.
- The shell: the main application, the login and settings dialogs and the connection settings hold no logic beyond what is modelled.

## Findings

| source | as written | input that shows it | evidently intended | confidence | as-written member | corrected member |
|---|---|---|---|---|---|---|
| src/it/unicas/project/template/address/view/ScaricoDialogController.java:208-214 | after reporting a missing date the check still calls `isAfter` on the same `null` date | OK pressed with the date picker cleared, any quantity | report "Data non valida!" together with the other messages and reject the input | high; not executed | MovementDialog.ValidateAsWritten | MovementDialog.Validate |

=== FILE: calendar.dfy ===
/** The slice of `java.time.LocalDate` the warehouse uses: proleptic Gregorian
    dates of the ISO 8601 calendar, month lengths, `minusMonths(1)`,
    `isAfter`, and the `yyyy-MM-dd` pattern, which for years 1 to 9999 is the
    calendar date in extended format of section 4.1.2.2 of ISO 8601:2004. */
module Calendar {
  import opened Wrappers
  import opened Text

  datatype CalDate = CalDate(year: int, month: int, day: int)

  /** Leap years of the Gregorian calendar, extended to every year as
      ISO 8601 does. */
  predicate IsLeapYear(y: int) {
    y % 4 == 0 && (y % 100 != 0 || y % 400 == 0)
  }

  /** `LocalDate.lengthOfMonth()`. */
  function LengthOfMonth(y: int, m: int): (n: int)
    requires 1 <= m <= 12
    ensures 28 <= n <= 31
    ensures n == 31 <==> m in {1, 3, 5, 7, 8, 10, 12}
    ensures n == 30 <==> m in {4, 6, 9, 11}
    ensures m == 2 ==> (n == 29 <==> IsLeapYear(y))
  {
    if m == 2 then (if IsLeapYear(y) then 29 else 28)
    else if m == 4 || m == 6 || m == 9 || m == 11 then 30
    else 31
  }

  predicate ValidDate(d: CalDate) {
    1 <= d.month <= 12 && 1 <= d.day <= LengthOfMonth(d.year, d.month)
  }

  /** A `LocalDate`: only existing calendar days can be represented. */
  type Date = d: CalDate | ValidDate(d) witness CalDate(1970, 1, 1)

  /** Chronological order, `!a.isAfter(b)`. */
  predicate NotAfter(a: Date, b: Date) {
    a.year < b.year
    || (a.year == b.year && a.month < b.month)
    || (a.year == b.year && a.month == b.month && a.day <= b.day)
  }

  /** `a.isAfter(b)`. */
  predicate IsAfter(a: Date, b: Date) {
    !NotAfter(a, b)
  }

  lemma NotAfterTotalOrder(a: Date, b: Date, c: Date)
    ensures NotAfter(a, a)
    ensures NotAfter(a, b) || NotAfter(b, a)
    ensures NotAfter(a, b) && NotAfter(b, a) ==> a == b
    ensures NotAfter(a, b) && NotAfter(b, c) ==> NotAfter(a, c)
  {
  }

  /** `LocalDate.minusMonths(1)`: the same day of the previous month, January
      going back to December of the year before, and a day the shorter month
      lacks clamped to its last day. */
  function MinusOneMonth(d: Date): (r: Date)
    ensures d.month > 1 ==> r.year == d.year && r.month == d.month - 1
    ensures d.month == 1 ==> r.year == d.year - 1 && r.month == 12
    ensures r.day == if d.day <= LengthOfMonth(r.year, r.month) then d.day
                     else LengthOfMonth(r.year, r.month)
  {
    var (y, m) := if d.month == 1 then (d.year - 1, 12) else (d.year, d.month - 1);
    var n := LengthOfMonth(y, m);
    CalDate(y, m, if d.day <= n then d.day else n)
  }

  // ------------------------------------------------------------ formatting

  /** `n` in decimal, left-padded with zeros to at least `w` characters. */
  function ZeroPad(n: nat, w: nat): (r: string)
    ensures IsDigits(r)
    ensures |r| == if |NatToString(n)| >= w then |NatToString(n)| else w
    ensures |NatToString(n)| >= w ==> r == NatToString(n)
    decreases w
  {
    var s := NatToString(n);
    if |s| >= w then s else "0" + ZeroPad(n, w - 1)
  }

  lemma {:induction false} ParseLeadingZero(s: string)
    requires forall i :: 0 <= i < |s| ==> IsDigit(s[i])
    ensures ParseNat("0" + s) == ParseNat(s)
  {
    if s != [] {
      var t := "0" + s;
      assert t[..|t| - 1] == "0" + s[..|s| - 1];
      ParseLeadingZero(s[..|s| - 1]);
    }
  }

  lemma {:induction false} ParseZeroPad(n: nat, w: nat)
    ensures ParseNat(ZeroPad(n, w)) == n
    decreases w
  {
    if |NatToString(n)| >= w {
      ParseNatToString(n);
    } else {
      ParseZeroPad(n, w - 1);
      ParseLeadingZero(ZeroPad(n, w - 1));
    }
  }

  /** The `yyyy` field: the year of era (`1 - year` before year 1, the era
      itself not printed), at least four digits, with a `+` in front once it
      needs more than four. */
  function YearText(y: int): (r: string)
    ensures 1 <= y <= 9999 ==> r == ZeroPad(y, 4) && |r| == 4
  {
    var yoe: nat := if y >= 1 then y else 1 - y;
    if yoe > 9999 then "+" + NatToString(yoe) else ZeroPad(yoe, 4)
  }

  /** `date.format(DateTimeFormatter.ofPattern("yyyy-MM-dd"))`. */
  function FormatDate(d: Date): (r: string)
    ensures forall i :: 0 <= i < |r| ==> IsDigit(r[i]) || r[i] == '-' || r[i] == '+'
    ensures 1 <= d.year <= 9999 ==> |r| == 10 && r[4] == '-' && r[7] == '-'
  {
    var s := YearText(d.year) + "-" + ZeroPad(d.month, 2) + "-" + ZeroPad(d.day, 2);
    assert 1 <= d.year <= 9999 ==> |ZeroPad(d.month, 2)| == 2 && |ZeroPad(d.day, 2)| == 2;
    s
  }

  /** Reads an extended-format calendar date `YYYY-MM-DD` back. */
  function ParseIsoDate(s: string): (r: Option<CalDate>)
  {
    if |s| == 10 && s[4] == '-' && s[7] == '-'
       && IsDigits(s[..4]) && IsDigits(s[5..7]) && IsDigits(s[8..])
    then Some(CalDate(ParseNat(s[..4]), ParseNat(s[5..7]), ParseNat(s[8..])))
    else None
  }

  /** For the years ISO 8601 writes with four digits, the `yyyy-MM-dd` text
      reads back as the date it was written from. */
  lemma FormatDateRoundTrip(d: Date)
    requires 1 <= d.year <= 9999
    ensures ParseIsoDate(FormatDate(d)) == Some(d)
  {
    var y, m, dd := ZeroPad(d.year, 4), ZeroPad(d.month, 2), ZeroPad(d.day, 2);
    var s := FormatDate(d);
    assert s == y + "-" + m + "-" + dd;
    assert s[..4] == y && s[5..7] == m && s[8..] == dd;
    ParseZeroPad(d.year, 4);
    ParseZeroPad(d.month, 2);
    ParseZeroPad(d.day, 2);
  }
}

=== FILE: database.dfy ===
/** The MySQL store behind the two repositories, as values: the `prodotti`
    and `movimenti` tables in storage order, and the auto-increment counters
    that hand out their generated keys. The failure channel is `DAOException`,
    which carries only a message. The schema constraints the repositories run
    into are modelled too: product names are unique and a movement must refer
    to a stored product. */
module Database {
  import opened Wrappers
  import opened ProductModel
  import opened MovementModel
  import opened Sequences

  /** `DAOException(message)`. */
  datatype DaoError = DaoError(message: string)

  datatype Store = Store(
    products: seq<Product>,
    movements: seq<Movement>,
    nextProductId: int,
    nextMovementId: int)

  function EmptyStore(): (s: Store)
    ensures WellFormed(s)
  {
    Store([], [], 1, 1)
  }

  predicate HasProduct(ps: seq<Product>, id: int) {
    exists i :: 0 <= i < |ps| && ps[i].id == id
  }

  predicate HasName(ps: seq<Product>, name: string) {
    exists i :: 0 <= i < |ps| && ps[i].name == Some(name)
  }

  /** Every movement refers to a stored product (the foreign key
      `movimenti.idProdotto` → `prodotti.idProdotto`). */
  predicate ReferencesResolve(s: Store) {
    forall i :: 0 <= i < |s.movements| ==> HasProduct(s.products, s.movements[i].productId)
  }

  function ProductKey(p: Product): int {
    p.id
  }

  function ProductName(p: Product): Option<string> {
    p.name
  }

  /** The counters are positive; generated keys are positive, distinct and below the counter; names are
      non-null and unique (`prodotti.nome_UNIQUE`). */
  predicate ProductKeysSound(s: Store) {
    && s.nextProductId > 0
    && (forall i :: 0 <= i < |s.products| ==> 0 < s.products[i].id < s.nextProductId)
    && (forall i :: 0 <= i < |s.products| ==> s.products[i].name.Some?)
    && Injective(s.products, ProductKey)
    && Injective(s.products, ProductName)
  }

  predicate MovementKeysSound(s: Store) {
    && s.nextMovementId > 0
    && (forall i :: 0 <= i < |s.movements| ==> 0 < s.movements[i].id < s.nextMovementId)
  }

  /** Every stored movement has a date (`rs.getDate("data")` is read back
      without a null check). */
  predicate DatesRecorded(ms: seq<Movement>) {
    forall i :: 0 <= i < |ms| ==> ms[i].date.Some?
  }

  predicate WellFormed(s: Store) {
    ProductKeysSound(s) && MovementKeysSound(s) && ReferencesResolve(s) && DatesRecorded(s.movements)
  }

  /** The message MySQL reports for a second row with the same product name,
      wrapped the way the product repository wraps every update failure. */
  function DuplicateNameMessage(name: string): string {
    "In executeUpdateID(): Duplicate entry '" + name + "' for key 'prodotti.nome_UNIQUE'"
  }

  /** A movement written for a product that is not stored. */
  const ChildRowMessage := "In executeUpdate(): Cannot add or update a child row: a foreign key constraint fails"

  /** A product removed while movements still refer to it. */
  const ParentRowMessage := "In executeUpdateID(): Cannot delete or update a parent row: a foreign key constraint fails"
}

=== FILE: entities.dfy ===
/** The product record (`Prodotti`): identity, name and description, stock
    level (`quantita`), reorder threshold (`giacenzaMin`) and two prices.
    `-1` as id means "not yet stored"; a `None` text is Java's `null`.
    Prices are Java doubles; the model keeps them as exact reals, used only
    for sign tests and equality. */
module ProductModel {
  import opened Wrappers

  datatype Product = Product(
    id: int,
    name: Option<string>,
    description: Option<string>,
    quantity: int,
    minStock: int,
    purchasePrice: real,
    salePrice: real)

  /** `new Prodotti(id, nome, descrizione, quantita, giacenzaMin, acquisto,
      vendita)`: a `null` id becomes `-1`, every other argument is kept. */
  function NewProduct(id: Option<int>, name: Option<string>, description: Option<string>,
                      quantity: int, minStock: int, purchasePrice: real, salePrice: real): (p: Product)
    ensures id.None? ==> p.id == -1
    ensures id.Some? ==> p.id == id.value
    ensures p.name == name && p.description == description
    ensures p.quantity == quantity && p.minStock == minStock
    ensures p.purchasePrice == purchasePrice && p.salePrice == salePrice
  {
    Product(id.GetOr(-1), name, description, quantity, minStock, purchasePrice, salePrice)
  }

  /** `new Prodotti()`: unassigned id, empty texts, zero numbers. */
  function DefaultProduct(): (p: Product)
    ensures p.id == -1 && p.name == Some("") && p.description == Some("")
    ensures p.quantity == 0 && p.minStock == 0
    ensures p.purchasePrice == 0.0 && p.salePrice == 0.0
    ensures IsCritical(p)
  {
    NewProduct(Some(-1), Some(""), Some(""), 0, 0, 0.0, 0.0)
  }

  /** `vincoloQuantita()`: the product is at or below its reorder threshold. */
  predicate IsCritical(p: Product) {
    p.quantity <= p.minStock
  }

  // Setters. Each one changes its own field and nothing else: putting the old
  // value back into that field gives the original record.

  function SetId(p: Product, id: int): (r: Product)
    ensures r.id == id && r.(id := p.id) == p
  {
    p.(id := id)
  }

  function SetName(p: Product, name: Option<string>): (r: Product)
    ensures r.name == name && r.(name := p.name) == p
  {
    p.(name := name)
  }

  function SetDescription(p: Product, description: Option<string>): (r: Product)
    ensures r.description == description && r.(description := p.description) == p
  {
    p.(description := description)
  }

  function SetQuantity(p: Product, quantity: int): (r: Product)
    ensures r.quantity == quantity && r.(quantity := p.quantity) == p
    ensures IsCritical(r) <==> quantity <= p.minStock
  {
    p.(quantity := quantity)
  }

  function SetMinStock(p: Product, minStock: int): (r: Product)
    ensures r.minStock == minStock && r.(minStock := p.minStock) == p
    ensures IsCritical(r) <==> p.quantity <= minStock
  {
    p.(minStock := minStock)
  }

  function SetPurchasePrice(p: Product, price: real): (r: Product)
    ensures r.purchasePrice == price && r.(purchasePrice := p.purchasePrice) == p
    ensures IsCritical(r) == IsCritical(p)
  {
    p.(purchasePrice := price)
  }

  function SetSalePrice(p: Product, price: real): (r: Product)
    ensures r.salePrice == price && r.(salePrice := p.salePrice) == p
    ensures IsCritical(r) == IsCritical(p)
  {
    p.(salePrice := price)
  }
}

/** The movement record (`Movimenti`): one entry of the stock ledger. The
    product id is a plain `int` (a `null` one would fail on unboxing); the
    kind (`tipo`), date and note (`descrizione`) may be `null`. */
module MovementModel {
  import opened Wrappers
  import opened Calendar

  datatype Movement = Movement(
    id: int,
    productId: int,
    kind: Option<string>,
    quantity: int,
    date: Option<Date>,
    note: Option<string>)

  /** `new Movimenti(id, idProdotto, tipo, quantita, data, descrizione)`:
      a `null` id becomes `-1`, every other argument is kept. */
  function NewMovement(id: Option<int>, productId: int, kind: Option<string>, quantity: int,
                       date: Option<Date>, note: Option<string>): (m: Movement)
    ensures id.None? ==> m.id == -1
    ensures id.Some? ==> m.id == id.value
    ensures m.productId == productId && m.kind == kind && m.quantity == quantity
    ensures m.date == date && m.note == note
  {
    Movement(id.GetOr(-1), productId, kind, quantity, date, note)
  }

  /** `new Movimenti()`, with the clock reading `today` passed in. */
  function DefaultMovement(today: Date): (m: Movement)
    ensures m.id == -1 && m.productId == -1
    ensures m.kind == Some("") && m.quantity == 0
    ensures m.date == Some(today) && m.note == Some("")
  {
    NewMovement(Some(-1), -1, Some(""), 0, Some(today), Some(""))
  }

  function SetId(m: Movement, id: int): (r: Movement)
    ensures r.id == id && r.(id := m.id) == m
  {
    m.(id := id)
  }

  function SetProductId(m: Movement, productId: int): (r: Movement)
    ensures r.productId == productId && r.(productId := m.productId) == m
  {
    m.(productId := productId)
  }

  function SetKind(m: Movement, kind: Option<string>): (r: Movement)
    ensures r.kind == kind && r.(kind := m.kind) == m
  {
    m.(kind := kind)
  }

  function SetQuantity(m: Movement, quantity: int): (r: Movement)
    ensures r.quantity == quantity && r.(quantity := m.quantity) == m
  {
    m.(quantity := quantity)
  }

  function SetDate(m: Movement, date: Option<Date>): (r: Movement)
    ensures r.date == date && r.(date := m.date) == m
  {
    m.(date := date)
  }

  function SetNote(m: Movement, note: Option<string>): (r: Movement)
    ensures r.note == note && r.(note := m.note) == m
  {
    m.(note := note)
  }
}

=== FILE: export.dfy ===
/** `Esportazione`: the CSV export of the product list and of the movement
    history. Lines are `;`-separated fields; the file chooser and the file
    itself are outside the model, which produces the sequence of lines the
    writer prints. Java's string concatenation prints a `null` as `null`;
    `Double.toString` is the parameter `showPrice`. */
module Export {
  import opened Wrappers
  import opened Text
  import opened Calendar
  import opened ProductModel
  import opened MovementModel
  import Database
  import Sequences

  const Separator := ';'

  // ---------------------------------------------------------------- fields

  /** One line: the fields with a separator between each two. */
  function Join(fields: seq<string>): (line: string)
    requires |fields| > 0
  {
    if |fields| == 1 then fields[0] else fields[0] + [Separator] + Join(fields[1..])
  }

  /** Reading a line back: the pieces between separators, empty ones
      included. */
  function Split(line: string): (fields: seq<string>)
    ensures |fields| > 0
  {
    if line == [] then [[]]
    else
      var rest := Split(line[1..]);
      if line[0] == Separator then [[]] + rest else [[line[0]] + rest[0]] + rest[1..]
  }

  /** A prefix without separators is glued to the first field. */
  lemma {:induction false} SplitPrefix(a: string, b: string)
    requires Separator !in a
    ensures Split(a + b) == [a + Split(b)[0]] + Split(b)[1..]
  {
    if a != [] {
      var r := Split(a[1..] + b);
      assert a[0] != Separator && Separator !in a[1..];
      assert (a + b)[0] == a[0] && (a + b)[1..] == a[1..] + b;
      SplitPrefix(a[1..], b);
      assert Split(a + b) == [[a[0]] + r[0]] + r[1..];
      assert r[0] == a[1..] + Split(b)[0] && r[1..] == Split(b)[1..];
      assert [a[0]] + (a[1..] + Split(b)[0]) == a + Split(b)[0];
    } else {
      var r := Split(b);
      assert a + b == b && a + r[0] == r[0] && r == [r[0]] + r[1..];
    }
  }

  predicate SeparatorFree(fields: seq<string>) {
    forall i :: 0 <= i < |fields| ==> Separator !in fields[i]
  }

  /** As long as no field holds the separator, a line splits back into
      exactly the fields it was joined from. */
  lemma {:induction false} SplitJoin(fields: seq<string>)
    requires |fields| > 0 && SeparatorFree(fields)
    ensures Split(Join(fields)) == fields
  {
    if |fields| == 1 {
      SplitPrefix(fields[0], []);
      assert fields[0] + [] == fields[0];
    } else {
      var rest := Join(fields[1..]);
      var tail := [Separator] + rest;
      SplitJoin(fields[1..]);
      assert tail[0] == Separator && tail[1..] == rest;
      assert Split(tail) == [[]] + fields[1..];
      SplitPrefix(fields[0], tail);
      assert Join(fields) == fields[0] + tail;
      assert Split(Join(fields)) == [fields[0] + []] + fields[1..];
      assert fields[0] + [] == fields[0];
      assert fields == [fields[0]] + fields[1..];
    }
  }

  /** A separator inside one field shifts every later column: one field more
      comes back than was written. */
  lemma {:induction false} SplitExtraSeparator(a: string, b: string)
    requires Separator !in a && Separator !in b
    ensures |Split(Join([a + [Separator] + b]))| == 2
  {
    assert Join([a + [Separator] + b]) == a + [Separator] + b;
    SplitJoin([a, b]);
  }

  /** A text in a string concatenation: `null` prints as `null`. */
  function Show(text: Option<string>): (r: string)
    ensures text.Some? ==> r == text.value
    ensures text.None? ==> r == "null"
  {
    text.GetOr("null")
  }

  lemma NumberHasNoSeparator(i: int)
    ensures Separator !in IntToString(i)
  {
    var r := IntToString(i);
    forall k | 0 <= k < |r| ensures r[k] != Separator {
    }
  }

  lemma DateHasNoSeparator(d: Date)
    ensures Separator !in FormatDate(d)
  {
    var r := FormatDate(d);
    forall k | 0 <= k < |r| ensures r[k] != Separator {
    }
  }

  // ------------------------------------------------------------- products

  /** The header of the product export, one name per column. */
  const ProductColumns: seq<string> :=
    ["ID_Prodotto", "Nome", "Descrizione", "Quantita_Attuale",
     "Giacenza_Minima", "Prezzo_Acquisto", "Prezzo_Vendita"]

  /** The fields of one product line, in header order. */
  function ProductFields(p: Product, showPrice: real -> string): (fields: seq<string>)
    ensures |fields| == |ProductColumns|
    ensures fields[1] == Show(p.name) && fields[2] == Show(p.description)
  {
    [IntToString(p.id), Show(p.name), Show(p.description), IntToString(p.quantity),
     IntToString(p.minStock), showPrice(p.purchasePrice), showPrice(p.salePrice)]
  }

  /** `writeProdottiToCSV`: the header, then one line per product, in list
      order. */
  method ExportProducts(ps: seq<Product>, showPrice: real -> string) returns (lines: seq<string>)
    ensures |lines| == |ps| + 1
    ensures lines[0] == Join(ProductColumns)
    ensures forall i :: 0 <= i < |ps| ==> lines[i + 1] == Join(ProductFields(ps[i], showPrice))
  {
    lines := [Join(ProductColumns)];
    var k := 0;
    while k < |ps|
      invariant 0 <= k <= |ps|
      invariant |lines| == k + 1 && lines[0] == Join(ProductColumns)
      invariant forall i :: 0 <= i < k ==> lines[i + 1] == Join(ProductFields(ps[i], showPrice))
    {
      lines := lines + [Join(ProductFields(ps[k], showPrice))];
      k := k + 1;
    }
  }

  /** A product line reads back as its seven values when neither text nor
      the printed prices hold a separator. */
  lemma ProductLineRoundTrip(p: Product, showPrice: real -> string)
    requires Separator !in Show(p.name) && Separator !in Show(p.description)
    requires Separator !in showPrice(p.purchasePrice) && Separator !in showPrice(p.salePrice)
    ensures var fields := Split(Join(ProductFields(p, showPrice)));
            && |fields| == |ProductColumns|
            && fields[0] == IntToString(p.id)
            && fields[1] == Show(p.name) && fields[2] == Show(p.description)
            && fields[3] == IntToString(p.quantity) && fields[4] == IntToString(p.minStock)
  {
    NumberHasNoSeparator(p.id);
    NumberHasNoSeparator(p.quantity);
    NumberHasNoSeparator(p.minStock);
    SplitJoin(ProductFields(p, showPrice));
  }

  // ------------------------------------------------------------ movements

  const MovementColumns: seq<string> :=
    ["ID_Movimento", "Nome prodotto", "Tipo", "Quantita", "Data", "Descrizione"]

  /** The name the export prints for product `id`: that of the last listed
      product with the id, `None` when no product has it. */
  function NameOf(ps: seq<Product>, id: int): (name: Option<string>)
    ensures !Database.HasProduct(ps, id) ==> name.None?
  {
    if ps == [] then None
    else if ps[|ps| - 1].id == id then ps[|ps| - 1].name
    else
      assert forall k :: 0 <= k < |ps| - 1 ==> ps[..|ps| - 1][k] == ps[k];
      NameOf(ps[..|ps| - 1], id)
  }

  /** With distinct ids every product's own name is the one printed. */
  lemma {:induction false} NameOfDistinctIds(ps: seq<Product>, i: int)
    requires Sequences.Injective(ps, Database.ProductKey) && 0 <= i < |ps|
    ensures NameOf(ps, ps[i].id) == ps[i].name
  {
    if i < |ps| - 1 {
      var init := ps[..|ps| - 1];
      assert Database.ProductKey(ps[|ps| - 1]) != Database.ProductKey(ps[i]);
      assert Sequences.Injective(init, Database.ProductKey) by {
        forall a, b | 0 <= a < |init| && 0 <= b < |init| && Database.ProductKey(init[a]) == Database.ProductKey(init[b])
          ensures a == b
        {
          assert init[a] == ps[a] && init[b] == ps[b];
        }
      }
      NameOfDistinctIds(init, i);
    }
  }

  /** `map.get`: a missing key gives `null`. */
  function Lookup(names: map<int, Option<string>>, id: int): (r: Option<string>)
    ensures id !in names ==> r.None?
    ensures id in names ==> r == names[id]
  {
    if id in names then names[id] else None
  }

  /** The id-to-name map of `writeMovimentiToCSV`: one `put` per listed
      product, so that a later product with the same id overwrites an
      earlier one. Its keys are the listed ids and every lookup gives the
      name `NameOf` describes. */
  method NameMap(ps: seq<Product>) returns (names: map<int, Option<string>>)
    ensures forall id :: id in names <==> Database.HasProduct(ps, id)
    ensures forall id :: Lookup(names, id) == NameOf(ps, id)
  {
    names := map[];
    var k := 0;
    while k < |ps|
      invariant 0 <= k <= |ps|
      invariant forall id :: id in names <==> Database.HasProduct(ps[..k], id)
      invariant forall id :: Lookup(names, id) == NameOf(ps[..k], id)
    {
      assert ps[..k + 1][..k] == ps[..k];
      names := names[ps[k].id := ps[k].name];
      k := k + 1;
      assert forall id :: Database.HasProduct(ps[..k], id) <==>
        Database.HasProduct(ps[..k - 1], id) || ps[k - 1].id == id;
    }
    assert ps[..|ps|] == ps;
  }

  /** The date column: `yyyy-MM-dd`, empty for a missing date. */
  function DateField(date: Option<Date>): (r: string)
    ensures date.None? <==> r == ""
    ensures Separator !in r
    ensures date.Some? && 1 <= date.value.year <= 9999 ==> ParseIsoDate(r) == Some(date.value)
  {
    if date.None? then ""
    else
      DateHasNoSeparator(date.value);
      if 1 <= date.value.year <= 9999 then
        FormatDateRoundTrip(date.value);
        FormatDate(date.value)
      else
        FormatDate(date.value)
  }

  /** The fields of one movement line. The note loses its separators; the
      product name and the kind are printed as they are. */
  function MovementFields(m: Movement, name: Option<string>): (fields: seq<string>)
    requires m.note.Some?
    ensures |fields| == |MovementColumns|
    ensures fields[1] == Show(name) && fields[2] == Show(m.kind)
    ensures m.date.Some? && 1 <= m.date.value.year <= 9999 ==> ParseIsoDate(fields[4]) == m.date
    ensures Separator !in fields[5]
  {
    [IntToString(m.id), Show(name), Show(m.kind), IntToString(m.quantity),
     DateField(m.date), RemoveChar(m.note.value, Separator)]
  }

  /** Sanitising the note is idempotent: a second pass finds no separator
      left to remove. */
  lemma NoteSanitisingIdempotent(note: string)
    ensures RemoveChar(RemoveChar(note, Separator), Separator) == RemoveChar(note, Separator)
  {
    RemoveCharUnchangedIffAbsent(RemoveChar(note, Separator), Separator);
  }

  /** A movement line reads back as six columns, the note reduced to its
      separator-free text, whenever the name and the kind hold no separator:
      sanitising the note alone is enough to keep the column count then. */
  lemma MovementLineRoundTrip(m: Movement, ps: seq<Product>)
    requires m.note.Some?
    requires Separator !in Show(NameOf(ps, m.productId)) && Separator !in Show(m.kind)
    ensures var fields := Split(MovementLine(m, NameOf(ps, m.productId)));
            && |fields| == |MovementColumns|
            && fields[0] == IntToString(m.id)
            && fields[1] == Show(NameOf(ps, m.productId))
            && fields[2] == Show(m.kind)
            && fields[3] == IntToString(m.quantity)
            && fields[4] == DateField(m.date)
            && (m.date.Some? && 1 <= m.date.value.year <= 9999 ==> ParseIsoDate(fields[4]) == m.date)
            && fields[5] == RemoveChar(m.note.value, Separator)
            && fields[5] == Sequences.Filter(m.note.value, OtherThan(Separator))
            && (Separator !in m.note.value ==> fields[5] == m.note.value)
  {
    var name := NameOf(ps, m.productId);
    var f := MovementFields(m, name);
    NumberHasNoSeparator(m.id);
    NumberHasNoSeparator(m.quantity);
    assert SeparatorFree(f) by {
      assert f == [IntToString(m.id), Show(name), Show(m.kind), IntToString(m.quantity),
                   DateField(m.date), RemoveChar(m.note.value, Separator)];
    }
    SplitJoin(f);
    assert Split(MovementLine(m, name)) == f;
    RemoveCharUnchangedIffAbsent(m.note.value, Separator);
    RemoveCharIsFilter(m.note.value, Separator);
  }

  /** The printed line of one movement. */
  function MovementLine(m: Movement, name: Option<string>): string
    requires m.note.Some?
  {
    Join(MovementFields(m, name))
  }

  /** `writeMovimentiToCSV`: the header, then one line per movement in list
      order. A movement without a note stops the export with an exception
      (`getDescrizione().replace` on `null`), which the caller reports as a
      failed export; the lines printed before it stay in the file. */
  method ExportMovements(ms: seq<Movement>, ps: seq<Product>) returns (lines: seq<string>, completed: bool)
    ensures completed <==> forall i :: 0 <= i < |ms| ==> ms[i].note.Some?
    ensures 1 <= |lines| <= |ms| + 1 && lines[0] == Join(MovementColumns)
    ensures completed ==> |lines| == |ms| + 1
    ensures !completed ==> |lines| <= |ms| && ms[|lines| - 1].note.None?
    ensures forall i :: 0 <= i < |lines| - 1 ==> ms[i].note.Some?
    ensures forall i :: 0 <= i < |lines| - 1 ==> lines[i + 1] == MovementLine(ms[i], NameOf(ps, ms[i].productId))
  {
    var names := NameMap(ps);
    lines := [Join(MovementColumns)];
    var k := 0;
    while k < |ms|
      invariant 0 <= k <= |ms|
      invariant |lines| == k + 1 && lines[0] == Join(MovementColumns)
      invariant forall i :: 0 <= i < k ==> ms[i].note.Some?
      invariant forall i :: 0 <= i < k ==> lines[i + 1] == MovementLine(ms[i], NameOf(ps, ms[i].productId))
    {
      if ms[k].note.None? {
        completed := false;
        return;
      }
      var line := MovementLine(ms[k], Lookup(names, ms[k].productId));
      assert line == MovementLine(ms[k], NameOf(ps, ms[k].productId));
      lines := lines + [line];
      k := k + 1;
    }
    completed := true;
  }
}

=== FILE: movement_dialog.dfy ===
/** `ScaricoDialogController`: the dialog that records one stock movement
    for the selected product. Its OK button validates the three inputs
    (quantity text, date, and for an outbound movement the stock on hand),
    fills in the movement, and applies its own quantity change to the
    product. The clock reading `LocalDate.now()` is the parameter `today`. */
module MovementDialog {
  import opened Wrappers
  import opened Text
  import opened Calendar
  import opened ProductModel
  import opened MovementModel

  /** What the dialog's controls hold when OK is pressed: the choice box
      value, the quantity text field (`null` possible), the date picker
      (`null` possible) and the note text area. */
  datatype Input = Input(kind: string, quantityText: Option<string>, date: Option<Date>, note: string)

  /** The kind the choice box starts with. */
  const DefaultKind := "SCARICO"

  const BadQuantityMessage := "Quantità non valida!\n"
  const NonPositiveMessage := "La quantità deve essere maggiore di 0.\n"
  const MissingDateMessage := "Data non valida!\n"
  const FutureDateMessage := "La data non può essere nel futuro!\n"

  function OverdrawMessage(stock: int): string {
    "Non puoi scaricare più merce di quella disponibile (Attuale: " + IntToString(stock) + ").\n"
  }

  /** The quantity field holds `\d+`. */
  predicate QuantityWellFormed(text: Option<string>) {
    text.Some? && IsDigits(text.value)
  }

  /** The value of a well-formed quantity field (`Integer.parseInt`). */
  function QuantityOf(text: Option<string>): nat
    requires QuantityWellFormed(text)
  {
    ParseNat(text.value)
  }

  /** The messages the quantity field contributes: malformed text, a zero
      value, or (only for the exact kind `SCARICO`) more than the stock. */
  function QuantityErrors(input: Input, stock: int): (msg: string)
    ensures !QuantityWellFormed(input.quantityText) ==> msg == BadQuantityMessage
    ensures msg == "" <==>
              && QuantityWellFormed(input.quantityText)
              && QuantityOf(input.quantityText) > 0
              && (input.kind == "SCARICO" ==> QuantityOf(input.quantityText) <= stock)
  {
    if !QuantityWellFormed(input.quantityText) then BadQuantityMessage
    else
      var q := QuantityOf(input.quantityText);
      if q <= 0 then NonPositiveMessage
      else if input.kind == "SCARICO" && q > stock then OverdrawMessage(stock)
      else ""
  }

  /** What a dialog may show when OK is pressed. */
  datatype Outcome = Accepted | Rejected(message: string) | Crashed

  /** `isInputValid` as written: the missing date is reported, and then the
      same `null` is asked `isAfter`, which throws. */
  function ValidateAsWritten(input: Input, stock: int, today: Date): (r: Outcome)
    ensures input.date.None? ==> r == Crashed
    ensures input.date.Some? ==> r != Crashed
  {
    var msg := QuantityErrors(input, stock);
    if input.date.None? then Crashed
    else
      var msg' := msg + (if IsAfter(input.date.value, today) then FutureDateMessage else "");
      if msg' == "" then Accepted else Rejected(msg')
  }

  /** The null-date defect: every input without a date ends in an exception
      instead of the "Data non valida!" message, whatever the other fields
      hold. */
  lemma NullDateCrashes(kind: string, text: Option<string>, note: string, stock: int, today: Date)
    ensures ValidateAsWritten(Input(kind, text, None, note), stock, today) == Crashed
    ensures Validate(Input(kind, text, None, note), stock, today)
            == Rejected(QuantityErrors(Input(kind, text, None, note), stock) + MissingDateMessage)
  {
  }

  /** The messages the date picker contributes, with the future check
      skipped for a missing date. */
  function DateErrors(date: Option<Date>, today: Date): (msg: string)
    ensures date.None? ==> msg == MissingDateMessage
    ensures msg == "" <==> date.Some? && NotAfter(date.value, today)
  {
    if date.None? then MissingDateMessage
    else if IsAfter(date.value, today) then FutureDateMessage
    else ""
  }

  /** The field-by-field acceptance rule, independent of the messages. */
  predicate Acceptable(input: Input, stock: int, today: Date) {
    && QuantityWellFormed(input.quantityText)
    && QuantityOf(input.quantityText) > 0
    && (input.kind == "SCARICO" ==> QuantityOf(input.quantityText) <= stock)
    && input.date.Some? && NotAfter(input.date.value, today)
  }

  /** `isInputValid` with the null check guarding the future check: the
      messages of both fields are collected, in order, and the input passes
      exactly when there are none. */
  function Validate(input: Input, stock: int, today: Date): (r: Outcome)
    ensures r != Crashed
    ensures r == Accepted <==> Acceptable(input, stock, today)
    ensures r.Rejected? ==> r.message == QuantityErrors(input, stock) + DateErrors(input.date, today)
  {
    var msg := QuantityErrors(input, stock) + DateErrors(input.date, today);
    if msg == "" then Accepted else Rejected(msg)
  }

  /** With a date present the code as written and the corrected check agree. */
  lemma ValidateAgreesWhenDated(input: Input, stock: int, today: Date)
    requires input.date.Some?
    ensures ValidateAsWritten(input, stock, today) == Validate(input, stock, today)
  {
  }

  /** The over-withdrawal guard: an accepted `SCARICO` never takes more
      than the stock on hand. */
  lemma AcceptedScaricoKeepsStock(input: Input, stock: int, today: Date)
    requires Validate(input, stock, today) == Accepted && input.kind == "SCARICO"
    ensures stock - QuantityOf(input.quantityText) >= 0
  {
  }

  /** `updateQuantitaProdotto`: `Carico` adds, `Scarico` subtracts (exact,
      case-sensitive comparison), anything else leaves the stock alone. */
  function DialogAdjust(stock: int, kind: string, q: int): (r: int)
    ensures kind == "Carico" ==> r == stock + q
    ensures kind == "Scarico" ==> r == stock - q
    ensures kind != "Carico" && kind != "Scarico" ==> r == stock
  {
    if kind == "Carico" then stock + q
    else if kind == "Scarico" then stock - q
    else stock
  }

  /** The guard only knows the upper-case token: a title-case `Scarico` of 5
      against a stock of 2 is accepted, and the dialog's own adjustment
      takes the stock to -3. */
  lemma TitleCaseScaricoSkipsGuard(today: Date)
    ensures Validate(Input("Scarico", Some("5"), Some(today), ""), 2, today) == Accepted
    ensures DialogAdjust(2, "Scarico", QuantityOf(Some("5"))) == -3
  {
    NotAfterTotalOrder(today, today, today);
    assert ParseNat("5") == 5 by {
      assert "5"[..0] == [];
    }
  }

  /** `handleOk`: on valid input the movement gets exactly the product's id,
      the chosen kind, the quantity, the date and the note (its own id is
      kept), and the product gets the dialog's adjustment and nothing else.
      Invalid input leaves both untouched (`None`). */
  function HandleOk(input: Input, product: Product, movement: Movement, today: Date)
    : (r: Option<(Movement, Product)>)
    ensures r.Some? <==> Acceptable(input, product.quantity, today)
    ensures r.Some? ==>
              var q := QuantityOf(input.quantityText);
              && r.value.0 == Movement(movement.id, product.id, Some(input.kind), q, input.date, Some(input.note))
              && r.value.1 == product.(quantity := DialogAdjust(product.quantity, input.kind, q))
  {
    if Validate(input, product.quantity, today) != Accepted then None
    else
      var q := QuantityOf(input.quantityText);
      var m := SetNote(SetDate(MovementModel.SetQuantity(SetKind(SetProductId(movement, product.id),
                 Some(input.kind)), q), input.date), Some(input.note));
      Some((m, ProductModel.SetQuantity(product, DialogAdjust(product.quantity, input.kind, q))))
  }
}

=== FILE: movement_repository.dfy ===
/** `MovimentiDAOMySQLImpl`: the movement repository. The ledger is
    append-only: `insert` validates and adds one row, `select` lists every
    row newest first, and `update`/`delete` do nothing. */
module MovementRepository {
  import opened Wrappers
  import opened Text
  import opened Calendar
  import opened MovementModel
  import opened Database

  // -------------------------------------------------------------- validation

  const NullMovementMessage := "Il movimento è null."
  const ProductIdMessage := "idProdotto non valido."
  const EmptyKindMessage := "Il tipo di movimento non può essere vuoto."
  const QuantityMessage := "La quantità non può essere negativa."

  /** The note that marks the first movement of a new product, which may
      carry quantity zero. */
  const InitialLoadNote := "Carico iniziale"

  /** `"Carico iniziale".equalsIgnoreCase(note)`; a `null` note never matches. */
  predicate IsInitialLoad(note: Option<string>) {
    note.Some? && EqualsIgnoreCase(InitialLoadNote, note.value)
  }

  /** What a movement must satisfy to be written. */
  predicate ValidMovement(m: Movement) {
    && m.productId > 0
    && m.kind.Some? && m.kind.value != ""
    && (m.quantity > 0 || (m.quantity == 0 && IsInitialLoad(m.note)))
  }

  /** `verifyObject`: the four checks in order, the first failing one
      deciding the message. */
  function Validate(m: Option<Movement>): (r: Result<(), DaoError>)
    ensures r.Success? <==> m.Some? && ValidMovement(m.value)
    ensures m.None? ==> r == Failure(DaoError(NullMovementMessage))
    ensures m.Some? && m.value.productId <= 0 ==> r == Failure(DaoError(ProductIdMessage))
    ensures m.Some? && m.value.productId > 0 && (m.value.kind.None? || m.value.kind.value == "") ==>
              r == Failure(DaoError(EmptyKindMessage))
    ensures m.Some? && m.value.productId > 0 && m.value.kind.Some? && m.value.kind.value != "" ==>
              (m.value.quantity < 0 || (m.value.quantity == 0 && !IsInitialLoad(m.value.note))) ==>
              r == Failure(DaoError(QuantityMessage))
    ensures m.Some? && m.value.quantity == 0 && r.Success? ==> IsInitialLoad(m.value.note)
  {
    if m.None? then Failure(DaoError(NullMovementMessage))
    else if m.value.productId <= 0 then Failure(DaoError(ProductIdMessage))
    else if m.value.kind.None? || m.value.kind.value == "" then Failure(DaoError(EmptyKindMessage))
    else if m.value.quantity < 0 || (m.value.quantity == 0 && !IsInitialLoad(m.value.note)) then
      Failure(DaoError(QuantityMessage))
    else Success(())
  }

  /** The zero-quantity exception ignores case: a note qualifies exactly
      when it has the length of "Carico iniziale" and each of its characters
      is a case variant of the one in the same place, so "CARICO INIZIALE"
      does and "Carico" does not. A `null` note never qualifies. */
  lemma InitialLoadIgnoresCase(s: string)
    ensures IsInitialLoad(Some(s)) <==>
              |s| == |InitialLoadNote| && forall i :: 0 <= i < |s| ==> CaseVariant(s[i], InitialLoadNote[i])
    ensures !IsInitialLoad(None)
  {
    forall i | 0 <= i < |s| && i < |InitialLoadNote|
      ensures FoldCase(InitialLoadNote[i]) == FoldCase(s[i]) <==> CaseVariant(s[i], InitialLoadNote[i])
    {
      SameFoldIffCaseVariant(s[i], InitialLoadNote[i]);
    }
  }

  // ------------------------------------------------------------------ insert

  /** MySQL refusing the text `'null'` for the `data` column. */
  const NullDateMessage := "In executeUpdate(): Incorrect date value: 'null' for column 'data' at row 1"

  /** The stored note: the value is spliced into the statement text, so a
      `null` note arrives as the four letters `null`. */
  function StoredNote(note: Option<string>): (r: Option<string>)
    ensures r.Some?
    ensures note.Some? ==> r == note
  {
    Some(note.GetOr("null"))
  }

  /** `insert`: validates, then appends one row under the next generated key
      (the movement's own id is ignored) and returns `0`. A missing date or
      an unknown product is refused by the storage. */
  function Insert(s: Store, m: Option<Movement>): (r: Result<(int, Store), DaoError>)
    ensures r.Success? <==> Validate(m).Success? && m.value.date.Some? && HasProduct(s.products, m.value.productId)
    ensures Validate(m).Failure? ==> r == Failure(Validate(m).error)
    ensures Validate(m).Success? && m.value.date.None? ==> r == Failure(DaoError(NullDateMessage))
    ensures Validate(m).Success? && m.value.date.Some? && !HasProduct(s.products, m.value.productId) ==>
              r == Failure(DaoError(ChildRowMessage))
    ensures r.Success? ==>
              && r.value.0 == 0
              && r.value.1.movements
                 == s.movements + [m.value.(id := s.nextMovementId, note := StoredNote(m.value.note))]
              && r.value.1.products == s.products
              && r.value.1.nextProductId == s.nextProductId
    ensures r.Success? && WellFormed(s) ==> WellFormed(r.value.1)
  {
    if Validate(m).Failure? then Failure(Validate(m).error)
    else if m.value.date.None? then Failure(DaoError(NullDateMessage))
    else if !HasProduct(s.products, m.value.productId) then Failure(DaoError(ChildRowMessage))
    else
      var row := m.value.(id := s.nextMovementId, note := StoredNote(m.value.note));
      var s' := s.(movements := s.movements + [row], nextMovementId := s.nextMovementId + 1);
      assert WellFormed(s) ==> WellFormed(s') by {
        if WellFormed(s) {
          forall i | 0 <= i < |s'.movements|
            ensures 0 < s'.movements[i].id < s'.nextMovementId && s'.movements[i].date.Some?
            ensures HasProduct(s'.products, s'.movements[i].productId)
          {
            if i < |s.movements| {
              assert s'.movements[i] == s.movements[i];
            }
          }
        }
      }
      Success((0, s'))
  }

  // ------------------------------------------------------------------ select

  /** `a` is listed before `b` by `ORDER BY data DESC`: `a` is not older. */
  predicate NotOlder(a: Movement, b: Movement)
    requires a.date.Some? && b.date.Some?
  {
    NotAfter(b.date.value, a.date.value)
  }

  predicate NewestFirst(ms: seq<Movement>)
    requires DatesRecorded(ms)
  {
    forall i, j :: 0 <= i < j < |ms| ==> NotOlder(ms[i], ms[j])
  }

  /** Places `m` after every row at least as new as it, so that rows with
      equal dates keep the order they arrived in. */
  function InsertByDate(m: Movement, ms: seq<Movement>): (r: seq<Movement>)
    requires m.date.Some? && DatesRecorded(ms)
    ensures multiset(r) == multiset(ms) + multiset{m}
    ensures DatesRecorded(r)
    ensures |r| == |ms| + 1
  {
    if ms == [] then [m]
    else if IsAfter(m.date.value, ms[0].date.value) then [m] + ms
    else
      assert ms == [ms[0]] + ms[1..];
      [ms[0]] + InsertByDate(m, ms[1..])
  }

  /** Every row of the insertion result is one of the rows or `m`, so a row
      at least as new as all of them and as `m` is at least as new as each. */
  lemma InsertByDateBounded(first: Movement, m: Movement, ms: seq<Movement>)
    requires first.date.Some? && m.date.Some? && DatesRecorded(ms)
    requires NotOlder(first, m)
    requires forall k :: 0 <= k < |ms| ==> NotOlder(first, ms[k])
    ensures forall x :: 0 <= x < |InsertByDate(m, ms)| ==> NotOlder(first, InsertByDate(m, ms)[x])
  {
    var r := InsertByDate(m, ms);
    forall x | 0 <= x < |r| ensures NotOlder(first, r[x]) {
      assert r[x] in multiset(r);
      if r[x] != m {
        assert r[x] in multiset(ms);
        var k :| 0 <= k < |ms| && ms[k] == r[x];
      }
    }
  }

  /** Putting `m` in front of a newest-first list it is newer than keeps the
      list newest first. */
  lemma PrependNewer(m: Movement, ms: seq<Movement>)
    requires m.date.Some? && DatesRecorded(ms) && NewestFirst(ms)
    requires ms != [] && IsAfter(m.date.value, ms[0].date.value)
    ensures DatesRecorded([m] + ms) && NewestFirst([m] + ms)
  {
    var r := [m] + ms;
    forall i, j | 0 <= i < j < |r| ensures NotOlder(r[i], r[j]) {
      if i == 0 {
        NotAfterTotalOrder(ms[0].date.value, m.date.value, m.date.value);
        NotAfterTotalOrder(r[j].date.value, ms[0].date.value, m.date.value);
      } else {
        assert r[i] == ms[i - 1] && r[j] == ms[j - 1];
      }
    }
  }

  /** Inserting into a newest-first list keeps it newest first. */
  lemma {:induction false} InsertByDateNewestFirst(m: Movement, ms: seq<Movement>)
    requires m.date.Some? && DatesRecorded(ms) && NewestFirst(ms)
    ensures NewestFirst(InsertByDate(m, ms))
  {
    if ms == [] {
    } else if IsAfter(m.date.value, ms[0].date.value) {
      PrependNewer(m, ms);
    } else {
      var tail := ms[1..];
      var rest := InsertByDate(m, tail);
      assert ms == [ms[0]] + tail;
      assert NewestFirst(tail) by {
        forall i, j | 0 <= i < j < |tail| ensures NotOlder(tail[i], tail[j]) {
          assert tail[i] == ms[i + 1] && tail[j] == ms[j + 1];
        }
      }
      InsertByDateNewestFirst(m, tail);
      InsertByDateBounded(ms[0], m, tail);
      var r := [ms[0]] + rest;
      assert InsertByDate(m, ms) == r;
      forall i, j | 0 <= i < j < |r| ensures NotOlder(r[i], r[j]) {
        if i > 0 {
          assert r[i] == rest[i - 1] && r[j] == rest[j - 1];
        } else {
          assert r[j] == rest[j - 1];
        }
      }
    }
  }

  /** A stable sort of the table by date, newest first. */
  function SortNewestFirst(ms: seq<Movement>): (r: seq<Movement>)
    requires DatesRecorded(ms)
    ensures multiset(r) == multiset(ms)
    ensures DatesRecorded(r) && NewestFirst(r)
    ensures |r| == |ms|
  {
    if ms == [] then []
    else
      var init := ms[..|ms| - 1];
      assert ms == init + [ms[|ms| - 1]];
      var sorted := SortNewestFirst(init);
      InsertByDateNewestFirst(ms[|ms| - 1], sorted);
      InsertByDate(ms[|ms| - 1], sorted)
  }

  /** `select(m, c)`: the prototype and the flag are ignored; every stored
      movement is returned, newest first. A row without a date cannot be
      read back, so the table must have none. */
  function Select(s: Store, filter: Option<Movement>, flag: bool): (r: seq<Movement>)
    requires DatesRecorded(s.movements)
    ensures multiset(r) == multiset(s.movements)
    ensures DatesRecorded(r) && NewestFirst(r)
  {
    SortNewestFirst(s.movements)
  }

  /** The result does not depend on the prototype or the flag. */
  lemma SelectIgnoresFilter(s: Store, f1: Option<Movement>, c1: bool, f2: Option<Movement>, c2: bool)
    requires DatesRecorded(s.movements)
    ensures Select(s, f1, c1) == Select(s, f2, c2)
  {
  }

  /** Newest-first order pins the listing down up to rows of equal date: the
      first row is the most recent movement of the table. */
  lemma SelectStartsWithNewest(s: Store, i: int)
    requires DatesRecorded(s.movements) && 0 <= i < |s.movements|
    ensures |Select(s, None, false)| > 0
    ensures NotAfter(s.movements[i].date.value, Select(s, None, false)[0].date.value)
  {
    var r := Select(s, None, false);
    assert s.movements[i] in multiset(r);
    var k :| 0 <= k < |r| && r[k] == s.movements[i];
    if k > 0 {
      assert NotOlder(r[0], r[k]);
    } else {
      NotAfterTotalOrder(r[0].date.value, r[0].date.value, r[0].date.value);
    }
  }

  // ------------------------------------------------------- update and delete

  /** `update`: not implemented, so it succeeds and changes nothing. */
  function Update(s: Store, m: Option<Movement>): (r: Result<Store, DaoError>)
    ensures r == Success(s)
  {
    Success(s)
  }

  /** `delete`: not implemented, so it succeeds and changes nothing. */
  function Delete(s: Store, m: Option<Movement>): (r: Result<Store, DaoError>)
    ensures r == Success(s)
  {
    Success(s)
  }
}

=== FILE: overview.dfy ===
/** `ProdottiOverviewController`: the main window's flows that touch the
    store. Recording a movement writes the movement and then the product's
    new stock; creating a product writes the product and then its initial
    movement. Neither pair is atomic, so each flow reports the store as it
    stands after the step that failed. */
module Overview {
  import opened Wrappers
  import opened Text
  import opened Calendar
  import opened ProductModel
  import opened MovementModel
  import opened Database
  import ProductRepository
  import MovementRepository
  import MovementDialog

  // ------------------------------------------------------ recording a movement

  /** The overview's own stock rule: `CARICO` adds, `SCARICO` subtracts
      (exact, case-sensitive comparison), anything else leaves the stock. */
  function OverviewAdjust(stock: int, kind: string, q: int): (r: int)
    ensures kind == "CARICO" ==> r == stock + q
    ensures kind == "SCARICO" ==> r == stock - q
    ensures kind != "CARICO" && kind != "SCARICO" ==> r == stock
  {
    if kind == "CARICO" then stock + q
    else if kind == "SCARICO" then stock - q
    else stock
  }

  /** The store after a multi-step flow, and the error of the step that
      failed, if one did. */
  datatype FlowResult = FlowResult(store: Store, error: Option<DaoError>)

  /** `handleMoveProdotto` after the dialog returned OK: insert the movement,
      then write the product with the overview's adjustment applied to the
      stock the dialog left. A failed insert changes nothing; a failed
      product write leaves the movement stored. */
  function MoveFlow(s: Store, product: Product, movement: Movement): (r: FlowResult)
    ensures MovementRepository.Insert(s, Some(movement)).Failure? ==>
              r == FlowResult(s, Some(MovementRepository.Insert(s, Some(movement)).error))
    ensures MovementRepository.Insert(s, Some(movement)).Success? ==>
              var s1 := MovementRepository.Insert(s, Some(movement)).value.1;
              && r.store.movements == s1.movements
              && |r.store.movements| == |s.movements| + 1
              && (r.error.None? ==> r.store.products == ProductRepository.ReplaceById(s.products,
                    product.(quantity := OverviewAdjust(product.quantity, movement.kind.value, movement.quantity))))
              && (r.error.Some? ==> r.store == s1)
    ensures MovementRepository.Insert(s, Some(movement)).Success? ==>
              var s1 := MovementRepository.Insert(s, Some(movement)).value.1;
              var p := product.(quantity := OverviewAdjust(product.quantity, movement.kind.value, movement.quantity));
              var u := ProductRepository.Update(s1, p);
              && (r.error.None? <==> u.Success?)
              && (u.Success? ==> r.store == u.value)
              && (u.Failure? ==> r.error == Some(u.error))
    ensures WellFormed(s) ==> WellFormed(r.store)
  {
    var inserted := MovementRepository.Insert(s, Some(movement));
    if inserted.Failure? then FlowResult(s, Some(inserted.error))
    else
      var s1 := inserted.value.1;
      var p := product.(quantity := OverviewAdjust(product.quantity, movement.kind.value, movement.quantity));
      var updated := ProductRepository.Update(s1, p);
      if updated.Failure? then FlowResult(s1, Some(updated.error))
      else FlowResult(updated.value, None)
  }

  /** The dialog and the overview each know one spelling of the two kinds;
      for each of the four spellings exactly one of them applies the change,
      so a movement of `q` moves the stock by exactly `q`. */
  lemma StockChangesExactlyOnce(stock: int, kind: string, q: int)
    requires kind in {"CARICO", "Carico", "SCARICO", "Scarico"}
    ensures var after := OverviewAdjust(MovementDialog.DialogAdjust(stock, kind, q), kind, q);
            && (kind == "CARICO" || kind == "Carico" ==> after == stock + q)
            && (kind == "SCARICO" || kind == "Scarico" ==> after == stock - q)
  {
  }

  /** A movement the dialog accepted for a stored product passes the
      repository's validation. */
  lemma DialogOutputPassesValidation(input: MovementDialog.Input, product: Product, movement: Movement, today: Date)
    requires MovementDialog.HandleOk(input, product, movement, today).Some?
    requires product.id > 0 && input.kind != ""
    ensures MovementRepository.Validate(Some(MovementDialog.HandleOk(input, product, movement, today).value.0)).Success?
  {
  }

  /** An accepted outbound movement recorded against the stock the dialog
      saw leaves a stock that is not negative. */
  lemma AcceptedScaricoStaysNonNegative(input: MovementDialog.Input, product: Product, movement: Movement, today: Date)
    requires MovementDialog.HandleOk(input, product, movement, today).Some?
    requires input.kind == "SCARICO"
    ensures var (m, p) := MovementDialog.HandleOk(input, product, movement, today).value;
            OverviewAdjust(p.quantity, m.kind.value, m.quantity) >= 0
  {
    MovementDialog.AcceptedScaricoKeepsStock(input, product.quantity, today);
  }

  // ------------------------------------------------------- creating a product

  const InitialKind := "CARICO"

  /** The movement `handleNewProdotto` records for a product just stored
      under `id`: its whole quantity, loaded today. */
  function InitialMovement(id: int, p: Product, today: Date): (m: Movement)
    ensures m.id == -1 && m.productId == id && m.kind == Some(InitialKind)
    ensures m.quantity == p.quantity && m.date == Some(today)
    ensures m.note == Some(MovementRepository.InitialLoadNote)
    ensures MovementRepository.IsInitialLoad(m.note)
  {
    NewMovement(None, id, Some(InitialKind), p.quantity, Some(today), Some(MovementRepository.InitialLoadNote))
  }

  /** For a product that passed the product validation, its initial
      movement passes the movement validation exactly when the returned key
      is positive (a zero stock is let through by the initial-load note). */
  lemma InitialMovementValidIffPositiveId(id: int, p: Product, today: Date)
    requires ProductRepository.ValidProduct(p)
    ensures MovementRepository.Validate(Some(InitialMovement(id, p, today))).Success? <==> id > 0
  {
    var m := InitialMovement(id, p, today);
    assert EqualsIgnoreCase(MovementRepository.InitialLoadNote, m.note.value);
  }

  /** In a well-formed store, once the product is stored its initial
      movement is always accepted: the key is positive and refers to the new
      row. */
  lemma InitialMovementAlwaysRecorded(s: Store, p: Product, today: Date)
    requires WellFormed(s) && ProductRepository.Insert(s, p).Success?
    ensures var ins := ProductRepository.Insert(s, p).value;
            MovementRepository.Insert(ins.store, Some(InitialMovement(ins.id, p, today))).Success?
  {
    var ins := ProductRepository.Insert(s, p).value;
    InitialMovementValidIffPositiveId(ins.id, p, today);
    assert ins.store.products[|s.products|].id == ins.id;
  }

  /** `handleNewProdotto` after the form returned OK: insert the product,
      then its initial movement under the returned key. In a well-formed
      store the flow never stops half-way. */
  function NewProductFlow(s: Store, p: Product, today: Date): (r: FlowResult)
    ensures ProductRepository.Insert(s, p).Failure? ==>
              r == FlowResult(s, Some(ProductRepository.Insert(s, p).error))
    ensures ProductRepository.Insert(s, p).Success? && WellFormed(s) ==>
              var ins := ProductRepository.Insert(s, p).value;
              && r.error.None?
              && r.store.products == s.products + [p.(id := ins.id)]
              && r.store.movements == s.movements + [InitialMovement(ins.id, p, today).(id := s.nextMovementId)]
    ensures WellFormed(s) ==> WellFormed(r.store)
  {
    var inserted := ProductRepository.Insert(s, p);
    if inserted.Failure? then FlowResult(s, Some(inserted.error))
    else
      var s1 := inserted.value.store;
      var m := InitialMovement(inserted.value.id, p, today);
      var recorded := MovementRepository.Insert(s1, Some(m));
      assert WellFormed(s) ==> recorded.Success? by {
        if WellFormed(s) {
          InitialMovementAlwaysRecorded(s, p, today);
        }
      }
      if recorded.Failure? then FlowResult(s1, Some(recorded.error))
      else FlowResult(recorded.value.1, None)
  }

  /** `msg.contains("Duplicate entry") && msg.contains("prodotti.nome_UNIQUE")`. */
  predicate IsDuplicateNameError(msg: string) {
    Contains(msg, "Duplicate entry") && Contains(msg, "prodotti.nome_UNIQUE")
  }

  /** The duplicate-name test looks for "Duplicate entry", which holds a
      `y`; so a message without any `y`, such as the two validation
      messages, can never be classified as a duplicate. */
  lemma DuplicateNeedsY(msg: string)
    ensures Contains(msg, "Duplicate entry") ==> 'y' in msg
  {
    if Contains(msg, "Duplicate entry") {
      var i :| 0 <= i <= |msg| && StartsWith(msg[i..], "Duplicate entry");
      assert msg[i..][..15][14] == 'y';
      assert msg[i + 14] == 'y';
    }
  }

  /** The storage's duplicate-name message is recognised as one. */
  lemma DuplicateMessageRecognised(name: string)
    ensures IsDuplicateNameError(DuplicateNameMessage(name))
  {
    var msg := DuplicateNameMessage(name);
    var a, b := "In executeUpdateID(): Duplicate entry '", "' for key 'prodotti.nome_UNIQUE'";
    assert msg == a + name + b;
    assert msg[|a| - 17..][..15] == "Duplicate entry" by {
      assert msg[|a| - 17..][..15] == a[|a| - 17..][..15];
    }
    assert msg[|a| + |name| + 11..][..20] == "prodotti.nome_UNIQUE" by {
      assert msg[|a| + |name|..] == b;
      assert msg[|a| + |name| + 11..][..20] == b[11..][..20];
    }
  }

  /** A failed product insert is reported as a duplicate name exactly when
      the product itself was valid, i.e. when the storage refused it; the
      validation messages are shown as plain database errors. */
  lemma InsertErrorClassification(s: Store, p: Product)
    requires ProductRepository.Insert(s, p).Failure?
    ensures IsDuplicateNameError(ProductRepository.Insert(s, p).error.message)
            <==> ProductRepository.ValidProduct(p)
  {
    var msg := ProductRepository.Insert(s, p).error.message;
    if ProductRepository.ValidProduct(p) {
      DuplicateMessageRecognised(p.name.value);
    } else {
      ValidationMessagesNotDuplicate();
      assert msg == ProductRepository.Validate(p).error.message;
    }
  }

  /** Neither validation message is mistaken for a duplicate name. */
  lemma ValidationMessagesNotDuplicate()
    ensures !IsDuplicateNameError(ProductRepository.NegativeFieldsMessage)
    ensures !IsDuplicateNameError(ProductRepository.NullTextMessage)
  {
    DuplicateNeedsY(ProductRepository.NegativeFieldsMessage);
    DuplicateNeedsY(ProductRepository.NullTextMessage);
    assert 'y' !in "I campi numerici (quantità, " && 'y' !in "giacenza e prezzi) non ";
    assert 'y' !in "possono essere negativi.";
    assert 'y' !in "I campi Nome e Descrizione " && 'y' !in "del Prodotto non ";
    assert 'y' !in "possono essere null.";
  }

  // ------------------------------------------------------------ table cells

  /** The "quantity missing" column of the critical table. */
  function Shortfall(p: Product): (n: int)
    ensures n >= 0 <==> IsCritical(p)
  {
    p.minStock - p.quantity
  }

  /** Every row the critical select returns has a non-negative shortfall. */
  lemma CriticalRowsHaveShortfall(s: Store, filter: Option<Product>)
    requires ProductRepository.PlainFilter(filter)
    ensures forall i :: 0 <= i < |ProductRepository.Select(s, filter, true)| ==>
              Shortfall(ProductRepository.Select(s, filter, true)[i]) >= 0
  {
  }

  /** The product column of the movements table: the name of the first
      product with the movement's product id, or the id itself in decimal. */
  function ProductNameCell(ps: seq<Product>, pid: int): (r: Option<string>)
    ensures forall k :: 0 <= k < |ps| && ps[k].id == pid && (forall j :: 0 <= j < k ==> ps[j].id != pid)
              ==> r == ps[k].name
    ensures !HasProduct(ps, pid) ==> r == Some(IntToString(pid))
  {
    if ps == [] then Some(IntToString(pid))
    else if ps[0].id == pid then ps[0].name
    else
      var r := ProductNameCell(ps[1..], pid);
      assert forall k :: 1 <= k < |ps| ==> ps[k] == ps[1..][k - 1];
      assert !HasProduct(ps, pid) ==> !HasProduct(ps[1..], pid);
      r
  }

  // ------------------------------------------------------------------ search

  /** The prototype `handleSearchProdotti` hands to the form. */
  function SearchPrototype(): (p: Product)
    ensures p == ProductRepository.NoFilter()
  {
    NewProduct(None, Some(""), Some(""), -1, -1, 0.0, 0.0)
  }

  /** A search whose prototype comes back unchanged lists every product. */
  lemma UnchangedSearchListsAll(s: Store)
    ensures ProductRepository.Select(s, Some(SearchPrototype()), false) == s.products
  {
    ProductRepository.SelectWithoutFilterIsTable(s);
    assert ProductRepository.CompileFilter(Some(SearchPrototype()), false)
        == ProductRepository.CompileFilter(None, false);
  }
}

=== FILE: product_form.dfy ===
/** `ProdottiEditDialogController`: the six-field product form, used in two
    modes. In edit mode (`verifyLen`, here `strict`) every field is required;
    in search mode every field may stay empty and an empty field becomes the
    sentinel that adds no clause to the product query. A `null` field text
    behaves exactly like a blank one in every branch, so the texts are plain
    strings. `Double.toString` is the parameter `showPrice`. */
module ProductForm {
  import opened Wrappers
  import opened Text
  import opened ProductModel
  import ProductRepository
  import Database
  import Sequences

  /** The texts of the six fields. */
  datatype Form = Form(
    name: string,
    description: string,
    quantity: string,
    minStock: string,
    purchasePrice: string,
    salePrice: string)

  // ------------------------------------------------------------ decimals

  /** The first position of `c` in `s`. */
  function IndexOf(s: string, c: char): (k: nat)
    requires c in s
    ensures k < |s| && s[k] == c
    ensures forall i :: 0 <= i < k ==> s[i] != c
  {
    if s[0] == c then 0
    else
      assert c in s[1..] by {
        var j :| 0 <= j < |s| && s[j] == c;
        assert s[1..][j - 1] == c;
      }
      1 + IndexOf(s[1..], c)
  }

  /** The regular expression `\d+(\.\d+)?`. */
  predicate IsDecimal(s: string) {
    if '.' in s then
      var k := IndexOf(s, '.');
      IsDigits(s[..k]) && IsDigits(s[k + 1..])
    else IsDigits(s)
  }

  function Pow10(n: nat): (r: nat)
    ensures r > 0
  {
    if n == 0 then 1 else 10 * Pow10(n - 1)
  }

  /** The exact value of a decimal text (`Double.parseDouble` without the
      rounding to the nearest double). */
  function DecimalValue(s: string): (v: real)
    requires IsDecimal(s)
    ensures v >= 0.0
  {
    if '.' in s then
      var k := IndexOf(s, '.');
      ParseNat(s[..k]) as real + ParseNat(s[k + 1..]) as real / Pow10(|s| - k - 1) as real
    else ParseNat(s) as real
  }

  /** A decimal text denotes a positive amount exactly when one of its
      digits is not zero. */
  lemma DecimalPositiveIffNonZeroDigit(s: string)
    requires IsDecimal(s)
    ensures DecimalValue(s) > 0.0 <==> exists i :: 0 <= i < |s| && s[i] != '0' && s[i] != '.'
  {
    if '.' in s {
      var k := IndexOf(s, '.');
      var a, b := s[..k], s[k + 1..];
      ParseNatPositiveIffNonZeroDigit(a);
      ParseNatPositiveIffNonZeroDigit(b);
      var d := Pow10(|s| - k - 1) as real;
      assert d > 0.0;
      assert DecimalValue(s) == ParseNat(a) as real + ParseNat(b) as real / d;
      assert DecimalValue(s) > 0.0 <==> ParseNat(a) > 0 || ParseNat(b) > 0 by {
        assert ParseNat(b) as real / d >= 0.0;
        assert ParseNat(b) > 0 ==> ParseNat(b) as real / d > 0.0;
      }
      if i :| 0 <= i < |s| && s[i] != '0' && s[i] != '.' {
        if i < k {
          assert a[i] != '0';
        } else {
          assert b[i - k - 1] != '0';
        }
      }
      if i :| 0 <= i < |a| && a[i] != '0' {
        assert s[i] != '0' && s[i] != '.';
      }
      if i :| 0 <= i < |b| && b[i] != '0' {
        assert s[k + 1 + i] != '0' && s[k + 1 + i] != '.';
      }
    } else {
      ParseNatPositiveIffNonZeroDigit(s);
    }
  }

  /** A count printed by `String.valueOf` reads back as a decimal of the same
      value. */
  lemma WholeNumberIsDecimal(n: nat)
    ensures IsDecimal(NatToString(n)) && DecimalValue(NatToString(n)) == n as real
  {
    var s := NatToString(n);
    assert '.' !in s by {
      assert forall i :: 0 <= i < |s| ==> s[i] != '.';
    }
    ParseNatToString(n);
  }

  // ----------------------------------------------------------- validation

  /** A required text field: blank is rejected in edit mode only. */
  function TextFieldErrors(text: string, strict: bool, missing: string): (msg: string)
    requires missing != ""
    ensures msg == "" <==> !(strict && IsBlank(text))
  {
    TrimEmptyIffBlank(text);
    if strict && Trim(text) == "" then missing else ""
  }

  /** A count field is acceptable when blank in search mode, or when its
      trimmed text is all digits. */
  predicate CountFieldOk(text: string, strict: bool) {
    if IsBlank(text) then !strict else IsDigits(Trim(text))
  }

  /** The quantity and minimum-stock checks: malformed text, then the
      negative check (which digits can never fail), then the required check
      for an empty field in edit mode. */
  function CountFieldErrors(text: string, strict: bool, malformed: string, negative: string, missing: string)
    : (msg: string)
    requires malformed != "" && missing != ""
    ensures msg == "" <==> CountFieldOk(text, strict)
  {
    TrimEmptyIffBlank(text);
    var t := Trim(text);
    if t != "" then
      if !IsDigits(t) then malformed
      else if ParseNat(t) < 0 then negative
      else ""
    else if strict then missing
    else ""
  }

  /** A price field is acceptable when blank in search mode, or when its
      trimmed text is a decimal with a positive value. */
  predicate PriceFieldOk(text: string, strict: bool) {
    if IsBlank(text) then !strict else IsDecimal(Trim(text)) && DecimalValue(Trim(text)) > 0.0
  }

  function PriceFieldErrors(text: string, strict: bool, malformed: string, notPositive: string, missing: string)
    : (msg: string)
    requires malformed != "" && notPositive != "" && missing != ""
    ensures msg == "" <==> PriceFieldOk(text, strict)
  {
    TrimEmptyIffBlank(text);
    var t := Trim(text);
    if t != "" then
      if !IsDecimal(t) then malformed
      else if DecimalValue(t) <= 0.0 then notPositive
      else ""
    else if strict then missing
    else ""
  }

  /** The field-by-field acceptance rule, independent of the messages. */
  predicate Acceptable(f: Form, strict: bool) {
    && (strict ==> !IsBlank(f.name) && !IsBlank(f.description))
    && CountFieldOk(f.quantity, strict)
    && CountFieldOk(f.minStock, strict)
    && PriceFieldOk(f.purchasePrice, strict)
    && PriceFieldOk(f.salePrice, strict)
  }

  /** `isInputValid`: the messages of all six fields, collected in order;
      the form passes exactly when there are none. */
  function FormErrors(f: Form, strict: bool): (msg: string)
    ensures msg == "" <==> Acceptable(f, strict)
  {
    TextFieldErrors(f.name, strict, "Nome non valido!\n")
    + TextFieldErrors(f.description, strict, "Descrizione non valida!\n")
    + CountFieldErrors(f.quantity, strict,
        "Quantità non valida (deve essere un numero)!\n",
        "La quantità non può essere negativa!\n",
        "Quantità non valida (campo obbligatorio)!\n")
    + CountFieldErrors(f.minStock, strict,
        "Giacenza minima non valida (deve essere un numero)!\n",
        "La giacenza minima non può essere negativa!\n",
        "Giacenza minima non valida (campo obbligatorio)!\n")
    + PriceFieldErrors(f.purchasePrice, strict,
        "Prezzo acquisto non valido!\n",
        "Il prezzo di acquisto deve essere maggiore di 0!\n",
        "Prezzo acquisto non valido (campo obbligatorio)!\n")
    + PriceFieldErrors(f.salePrice, strict,
        "Prezzo vendita non valido!\n",
        "Il prezzo di vendita deve essere maggiore di 0!\n",
        "Prezzo vendita non valido (campo obbligatorio)!\n")
  }

  // -------------------------------------------------------- reading fields

  /** A text field as stored: trimmed, and `null` when blank. */
  function TextValue(text: string): (r: Option<string>)
    ensures r.None? <==> IsBlank(text)
    ensures r.Some? ==> r.value == Trim(text) && r.value != ""
    ensures r.Some? ==> !IsTrimmed(r.value[0]) && !IsTrimmed(r.value[|r.value| - 1])
  {
    TrimEmptyIffBlank(text);
    if Trim(text) == "" then None else Some(Trim(text))
  }

  /** A count field as stored: `blank` when empty, the parsed digits
      otherwise (never negative). */
  function CountValue(text: string, blank: int): (r: int)
    requires IsBlank(text) || IsDigits(Trim(text))
    ensures IsBlank(text) ==> r == blank
    ensures !IsBlank(text) ==> r >= 0 && r == ParseNat(Trim(text))
  {
    TrimEmptyIffBlank(text);
    if Trim(text) == "" then blank else ParseNat(Trim(text))
  }

  /** A price field as stored: `0.0` when empty, the parsed decimal otherwise. */
  function PriceValue(text: string): (r: real)
    requires IsBlank(text) || IsDecimal(Trim(text))
    ensures IsBlank(text) ==> r == 0.0
    ensures !IsBlank(text) ==> r == DecimalValue(Trim(text))
  {
    TrimEmptyIffBlank(text);
    if Trim(text) == "" then 0.0 else DecimalValue(Trim(text))
  }

  /** `handleOk`: on an acceptable form the product gets the six field
      values (its id is kept); otherwise the form's messages are shown and
      the product is left alone. An empty quantity would become `0` in edit
      mode and `-1` in search mode, an empty minimum `-1`, an empty price
      `0.0`. */
  function HandleOk(f: Form, p: Product, strict: bool): (r: Result<Product, string>)
    ensures r.Success? <==> Acceptable(f, strict)
    ensures r.Failure? ==> r.error == FormErrors(f, strict) && r.error != ""
    ensures r.Success? ==>
              && r.value.id == p.id
              && r.value.name == TextValue(f.name)
              && r.value.description == TextValue(f.description)
              && r.value.quantity == CountValue(f.quantity, if strict then 0 else -1)
              && r.value.minStock == CountValue(f.minStock, -1)
              && r.value.purchasePrice == PriceValue(f.purchasePrice)
              && r.value.salePrice == PriceValue(f.salePrice)
  {
    var errors := FormErrors(f, strict);
    if errors != "" then Failure(errors)
    else
      var q := CountValue(f.quantity, if strict then 0 else -1);
      Success(NewProduct(Some(p.id), TextValue(f.name), TextValue(f.description), q,
                         CountValue(f.minStock, -1), PriceValue(f.purchasePrice), PriceValue(f.salePrice)))
  }

  /** What edit mode accepts, the product repository accepts too: both texts
      present, counts non-negative, prices positive. */
  lemma EditOutputPassesRepositoryValidation(f: Form, p: Product)
    requires HandleOk(f, p, true).Success?
    ensures ProductRepository.Validate(HandleOk(f, p, true).value).Success?
    ensures HandleOk(f, p, true).value.purchasePrice > 0.0 && HandleOk(f, p, true).value.salePrice > 0.0
  {
    var r := HandleOk(f, p, true).value;
    assert Acceptable(f, true);
    assert r.name.Some? && r.description.Some?;
    assert r.quantity >= 0 && r.minStock >= 0;
    assert r.purchasePrice > 0.0 && r.salePrice > 0.0;
  }

  /** In search mode each field is blank exactly when it comes back as its
      sentinel: `null` text, `-1` count, `0.0` price. */
  lemma SearchBlankIffSentinel(f: Form, p: Product)
    requires HandleOk(f, p, false).Success?
    ensures var r := HandleOk(f, p, false).value;
            && (r.name.None? <==> IsBlank(f.name))
            && (r.description.None? <==> IsBlank(f.description))
            && (r.quantity == -1 <==> IsBlank(f.quantity))
            && (r.minStock == -1 <==> IsBlank(f.minStock))
            && (r.purchasePrice == 0.0 <==> IsBlank(f.purchasePrice))
            && (r.salePrice == 0.0 <==> IsBlank(f.salePrice))
  {
  }

  /** A search with every field left blank compiles to no clause at all,
      so it lists the whole table. */
  lemma BlankSearchListsAll(f: Form, p: Product, s: Database.Store)
    requires IsBlank(f.name) && IsBlank(f.description) && IsBlank(f.quantity)
    requires IsBlank(f.minStock) && IsBlank(f.purchasePrice) && IsBlank(f.salePrice)
    ensures HandleOk(f, p, false).Success?
    ensures ProductRepository.PlainFilter(Some(HandleOk(f, p, false).value))
    ensures ProductRepository.CompileFilter(Some(HandleOk(f, p, false).value), false) == []
    ensures ProductRepository.Select(s, Some(HandleOk(f, p, false).value), false) == s.products
  {
    assert Acceptable(f, false);
    var r := HandleOk(f, p, false).value;
    assert r.name.None? && r.description.None?;
    assert r.quantity == -1 && r.minStock == -1;
    assert r.purchasePrice == 0.0 && r.salePrice == 0.0;
    assert ProductRepository.CompileFilter(Some(r), false) == [];
    Sequences.FilterKeepsAll(s.products, ProductRepository.Matcher([]));
  }

  // ------------------------------------------------------------- display

  /** `setProdotto`: the texts the form shows for a product. Names show as
      they are (`null` as empty). In edit mode a product without a stored
      key shows empty numbers and a stored one shows all four; in search
      mode a number shows only when it is not its sentinel. */
  function DisplayForm(p: Product, strict: bool, showPrice: real -> string): (f: Form)
    ensures f.name == p.name.GetOr("") && f.description == p.description.GetOr("")
    ensures strict && p.id <= 0 ==>
              f.quantity == "" && f.minStock == "" && f.purchasePrice == "" && f.salePrice == ""
    ensures strict && p.id > 0 ==>
              && f.quantity == IntToString(p.quantity) && f.minStock == IntToString(p.minStock)
              && f.purchasePrice == showPrice(p.purchasePrice) && f.salePrice == showPrice(p.salePrice)
    ensures !strict ==> f.quantity == if p.quantity > -1 then IntToString(p.quantity) else ""
    ensures !strict ==> f.minStock == if p.minStock > -1 then IntToString(p.minStock) else ""
    ensures !strict && p.purchasePrice > 0.0 ==> f.purchasePrice == showPrice(p.purchasePrice)
    ensures !strict && p.salePrice > 0.0 ==> f.salePrice == showPrice(p.salePrice)
    ensures !strict && p.purchasePrice <= 0.0 ==> f.purchasePrice == ""
    ensures !strict && p.salePrice <= 0.0 ==> f.salePrice == ""
  {
    var name, description := p.name.GetOr(""), p.description.GetOr("");
    if strict then
      if p.id <= 0 then Form(name, description, "", "", "", "")
      else Form(name, description, IntToString(p.quantity), IntToString(p.minStock),
                showPrice(p.purchasePrice), showPrice(p.salePrice))
    else
      Form(name, description,
           if p.quantity > -1 then IntToString(p.quantity) else "",
           if p.minStock > -1 then IntToString(p.minStock) else "",
           if p.purchasePrice > 0.0 then showPrice(p.purchasePrice) else "",
           if p.salePrice > 0.0 then showPrice(p.salePrice) else "")
  }

  /** A count shown by the form reads back as the same count. */
  lemma CountRoundTrip(n: int, blank: int)
    requires n >= 0
    ensures !IsBlank(IntToString(n)) && IsDigits(Trim(IntToString(n)))
    ensures CountValue(IntToString(n), blank) == n
  {
    var s := NatToString(n);
    assert !IsTrimmed(s[0]) && !IsTrimmed(s[|s| - 1]);
    TrimUntrimmed(s);
    ParseNatToString(n);
  }

  /** The count text search mode shows for `n` reads back as `n`. */
  lemma SearchCountRoundTrip(n: int)
    requires n >= -1
    ensures var text := if n > -1 then IntToString(n) else "";
            CountFieldOk(text, false) && CountValue(text, -1) == n
  {
    if n > -1 {
      CountRoundTrip(n, -1);
    }
  }

  /** The form search mode shows for such a prototype is acceptable, and
      its count fields read back as the prototype's counts. */
  lemma SearchDisplayAcceptable(p: Product, showPrice: real -> string)
    requires p.quantity >= -1 && p.minStock >= -1
    requires p.purchasePrice == 0.0 && p.salePrice == 0.0
    ensures var f := DisplayForm(p, false, showPrice);
            && Acceptable(f, false)
            && CountValue(f.quantity, -1) == p.quantity
            && CountValue(f.minStock, -1) == p.minStock
            && IsBlank(f.purchasePrice) && IsBlank(f.salePrice)
  {
    var f := DisplayForm(p, false, showPrice);
    SearchCountRoundTrip(p.quantity);
    SearchCountRoundTrip(p.minStock);
    assert CountFieldOk(f.quantity, false) && CountFieldOk(f.minStock, false);
    assert f.purchasePrice == "" && f.salePrice == "";
    assert PriceFieldOk(f.purchasePrice, false) && PriceFieldOk(f.salePrice, false);
  }

  /** Search mode round trip: a prototype whose counts are real values or
      `-1` and whose prices are at the sentinel is shown and, with OK on the
      unchanged fields, gives back the same numbers. */
  lemma SearchNumbersRoundTrip(p: Product, showPrice: real -> string)
    requires p.quantity >= -1 && p.minStock >= -1
    requires p.purchasePrice == 0.0 && p.salePrice == 0.0
    ensures HandleOk(DisplayForm(p, false, showPrice), p, false).Success?
    ensures var r := HandleOk(DisplayForm(p, false, showPrice), p, false).value;
            r.id == p.id && r.quantity == p.quantity && r.minStock == p.minStock
            && r.purchasePrice == 0.0 && r.salePrice == 0.0
  {
    SearchDisplayAcceptable(p, showPrice);
  }

  /** The search prototype itself comes back as the prototype, with the
      empty texts turned into `null`. */
  lemma SearchPrototypeRoundTrip(showPrice: real -> string)
    ensures HandleOk(DisplayForm(ProductRepository.NoFilter(), false, showPrice),
                     ProductRepository.NoFilter(), false)
            == Success(ProductRepository.NoFilter().(name := None, description := None))
  {
    SearchNumbersRoundTrip(ProductRepository.NoFilter(), showPrice);
  }
}

=== FILE: product_repository.dfy ===
/** `ProdottiDAOMySQLImpl`: the product repository. `select` compiles a
    filter prototype into a conjunction of clauses (the `WHERE 1=1 AND ...`
    text), `insert`/`update` validate before writing, and `delete` cascades to
    the product's movements before removing the product. */
module ProductRepository {
  import opened Wrappers
  import opened Text
  import opened Sequences
  import opened ProductModel
  import MovementModel
  import opened Database

  // ------------------------------------------------------------------ select

  /** One `AND` clause of the compiled query, in the order they are appended. */
  datatype Clause =
    | NameStartsWith(prefix: string)          // nome LIKE 'prefix%'
    | DescriptionStartsWith(prefix: string)   // descrizione LIKE 'prefix%'
    | QuantityIs(quantity: int)               // quantita = n
    | CriticalOnly                            // quantita <= giacenzaMin
    | MinStockIs(minStock: int)               // giacenzaMin = n
    | PurchasePriceIs(price: real)            // prezzoAcquisto = x
    | SalePriceIs(price: real)                // prezzoVendita = x

  /** The prototype `select` uses for a `null` filter: every field at its
      "no constraint" sentinel. */
  function NoFilter(): (p: Product)
    ensures p.id == -1 && p.name == Some("") && p.description == Some("")
    ensures p.quantity == -1 && p.minStock == -1
    ensures p.purchasePrice == 0.0 && p.salePrice == 0.0
  {
    NewProduct(None, Some(""), Some(""), -1, -1, 0.0, 0.0)
  }

  /** Filter text is spliced into a quoted `LIKE` pattern; the model assumes it
      holds no quote, no wildcard and no escape character, so the pattern is a
      plain prefix. */
  predicate PlainText(t: Option<string>) {
    t.None? || forall i :: 0 <= i < |t.value| ==> t.value[i] !in "'%_\\"
  }

  predicate PlainFilter(filter: Option<Product>) {
    filter.None? || (PlainText(filter.value.name) && PlainText(filter.value.description))
  }

  /** A text field constrains the query when it is non-null and not blank. */
  predicate Populated(t: Option<string>) {
    t.Some? && Trim(t.value) != ""
  }

  function CompileFilter(filter: Option<Product>, critical: bool): (cs: seq<Clause>)
    ensures CriticalOnly in cs <==> critical
  {
    var a := filter.GetOr(NoFilter());
    Optional(Populated(a.name), NameStartsWith(a.name.GetOr([])))
    + Optional(Populated(a.description), DescriptionStartsWith(a.description.GetOr([])))
    + Optional(a.quantity > -1, QuantityIs(a.quantity))
    + Optional(critical, CriticalOnly)
    + Optional(a.minStock > -1, MinStockIs(a.minStock))
    + Optional(a.purchasePrice > 0.0, PurchasePriceIs(a.purchasePrice))
    + Optional(a.salePrice > 0.0, SalePriceIs(a.salePrice))
  }

  /** What one clause demands of a row. A `LIKE` on a `NULL` column is not true. */
  predicate Holds(c: Clause, row: Product) {
    match c
    case NameStartsWith(p) => row.name.Some? && StartsWith(row.name.value, p)
    case DescriptionStartsWith(p) => row.description.Some? && StartsWith(row.description.value, p)
    case QuantityIs(n) => row.quantity == n
    case CriticalOnly => IsCritical(row)
    case MinStockIs(n) => row.minStock == n
    case PurchasePriceIs(x) => row.purchasePrice == x
    case SalePriceIs(x) => row.salePrice == x
  }

  /** `1=1 AND c1 AND c2 ...`: the empty conjunction admits every row. */
  predicate Matches(cs: seq<Clause>, row: Product) {
    forall c | c in cs :: Holds(c, row)
  }

  /** A text filter field at its sentinel (null or blank) leaves the column
      free; any other value demands that the column start with it. */
  predicate TextAdmits(filter: Option<string>, column: Option<string>) {
    filter.None? || IsBlank(filter.value) || (column.Some? && StartsWith(column.value, filter.value))
  }

  /** The filter read field by field, independently of the clause list: a
      field at its sentinel (null or blank text, `-1` count, non-positive
      price) leaves the row free, any other value pins it. */
  predicate Admits(filter: Option<Product>, critical: bool, row: Product) {
    var a := filter.GetOr(NoFilter());
    && TextAdmits(a.name, row.name)
    && TextAdmits(a.description, row.description)
    && (a.quantity <= -1 || row.quantity == a.quantity)
    && (critical ==> row.quantity <= row.minStock)
    && (a.minStock <= -1 || row.minStock == a.minStock)
    && (a.purchasePrice <= 0.0 || row.purchasePrice == a.purchasePrice)
    && (a.salePrice <= 0.0 || row.salePrice == a.salePrice)
  }

  lemma MatchesAppend(a: seq<Clause>, b: seq<Clause>, row: Product)
    ensures Matches(a + b, row) <==> Matches(a, row) && Matches(b, row)
  {
    assert forall c :: c in a + b <==> c in a || c in b;
  }

  /** The clause list a condition contributes: one clause or none. */
  function Optional(present: bool, c: Clause): seq<Clause> {
    if present then [c] else []
  }

  lemma MatchesOptional(present: bool, c: Clause, row: Product)
    ensures Matches(Optional(present, c), row) <==> (present ==> Holds(c, row))
  {
    if present {
      assert c in Optional(present, c);
    }
  }

  lemma NameClauseMeaning(t: Option<string>, row: Product)
    ensures Matches(Optional(Populated(t), NameStartsWith(t.GetOr([]))), row) <==> TextAdmits(t, row.name)
  {
    if t.Some? {
      TrimEmptyIffBlank(t.value);
    }
    MatchesOptional(Populated(t), NameStartsWith(t.GetOr([])), row);
  }

  lemma DescriptionClauseMeaning(t: Option<string>, row: Product)
    ensures Matches(Optional(Populated(t), DescriptionStartsWith(t.GetOr([]))), row)
            <==> TextAdmits(t, row.description)
  {
    if t.Some? {
      TrimEmptyIffBlank(t.value);
    }
    MatchesOptional(Populated(t), DescriptionStartsWith(t.GetOr([])), row);
  }

  /** The compiled query selects exactly the rows the filter admits. */
  lemma {:induction false} CompileFilterMeaning(filter: Option<Product>, critical: bool, row: Product)
    ensures Matches(CompileFilter(filter, critical), row) <==> Admits(filter, critical, row)
  {
    var a := filter.GetOr(NoFilter());
    var p1 := Optional(Populated(a.name), NameStartsWith(a.name.GetOr([])));
    var p2 := Optional(Populated(a.description), DescriptionStartsWith(a.description.GetOr([])));
    var p3 := Optional(a.quantity > -1, QuantityIs(a.quantity));
    var p4 := Optional(critical, CriticalOnly);
    var p5 := Optional(a.minStock > -1, MinStockIs(a.minStock));
    var p6 := Optional(a.purchasePrice > 0.0, PurchasePriceIs(a.purchasePrice));
    var p7 := Optional(a.salePrice > 0.0, SalePriceIs(a.salePrice));
    NameClauseMeaning(a.name, row);
    DescriptionClauseMeaning(a.description, row);
    MatchesOptional(a.quantity > -1, QuantityIs(a.quantity), row);
    MatchesOptional(critical, CriticalOnly, row);
    MatchesOptional(a.minStock > -1, MinStockIs(a.minStock), row);
    MatchesOptional(a.purchasePrice > 0.0, PurchasePriceIs(a.purchasePrice), row);
    MatchesOptional(a.salePrice > 0.0, SalePriceIs(a.salePrice), row);
    MatchesAppend(p1 + p2 + p3 + p4 + p5 + p6, p7, row);
    MatchesAppend(p1 + p2 + p3 + p4 + p5, p6, row);
    MatchesAppend(p1 + p2 + p3 + p4, p5, row);
    MatchesAppend(p1 + p2 + p3, p4, row);
    MatchesAppend(p1 + p2, p3, row);
    MatchesAppend(p1, p2, row);
  }

  function Matcher(cs: seq<Clause>): Product -> bool {
    (row: Product) => Matches(cs, row)
  }

  function MatchingRows(cs: seq<Clause>, rows: seq<Product>): seq<Product> {
    Filter(rows, Matcher(cs))
  }

  /** `select(filter, critico)`: the stored rows the filter admits, in storage
      order; never more rows than the table holds. */
  function Select(s: Store, filter: Option<Product>, critical: bool): (r: seq<Product>)
    requires PlainFilter(filter)
    ensures multiset(r) <= multiset(s.products)
    ensures forall i :: 0 <= i < |r| ==> r[i] in s.products && Admits(filter, critical, r[i])
    ensures forall i :: 0 <= i < |s.products| && Admits(filter, critical, s.products[i])
              ==> s.products[i] in r
    ensures critical ==> forall i :: 0 <= i < |r| ==> IsCritical(r[i])
  {
    var cs := CompileFilter(filter, critical);
    var r := MatchingRows(cs, s.products);
    forall i | 0 <= i < |r| ensures Admits(filter, critical, r[i]) {
      assert Matcher(cs)(r[i]);
      CompileFilterMeaning(filter, critical, r[i]);
    }
    forall i | 0 <= i < |s.products| && Admits(filter, critical, s.products[i]) ensures s.products[i] in r {
      CompileFilterMeaning(filter, critical, s.products[i]);
      assert Matcher(cs)(s.products[i]);
    }
    r
  }

  /** A `null` filter without the critical flag returns the whole table. */
  lemma SelectWithoutFilterIsTable(s: Store)
    ensures Select(s, None, false) == s.products
  {
    assert CompileFilter(None, false) == [];
    FilterKeepsAll(s.products, Matcher([]));
  }

  /** Clauses are a conjunction: a query with at least the clauses of another
      returns a sub-multiset of its rows. */
  lemma {:induction false} MoreClausesFewerRows(cs1: seq<Clause>, cs2: seq<Clause>, rows: seq<Product>)
    requires forall c :: c in cs1 ==> c in cs2
    ensures multiset(MatchingRows(cs2, rows)) <= multiset(MatchingRows(cs1, rows))
  {
    if rows != [] {
      MoreClausesFewerRows(cs1, cs2, rows[1..]);
    }
  }

  /** Populating more filter fields (so that every clause of the first query
      also appears in the second) never enlarges the result. */
  lemma SelectNarrows(s: Store, f1: Option<Product>, c1: bool, f2: Option<Product>, c2: bool)
    requires PlainFilter(f1) && PlainFilter(f2)
    requires forall c :: c in CompileFilter(f1, c1) ==> c in CompileFilter(f2, c2)
    ensures multiset(Select(s, f2, c2)) <= multiset(Select(s, f1, c1))
  {
    MoreClausesFewerRows(CompileFilter(f1, c1), CompileFilter(f2, c2), s.products);
  }

  /** Setting the critical flag only ever removes rows. */
  lemma CriticalFlagNarrows(s: Store, f: Option<Product>)
    requires PlainFilter(f)
    ensures multiset(Select(s, f, true)) <= multiset(Select(s, f, false))
  {
    var a := f.GetOr(NoFilter());
    forall c | c in CompileFilter(f, false) ensures c in CompileFilter(f, true) {
    }
    SelectNarrows(s, f, false, f, true);
  }

  // -------------------------------------------------------------- validation

  const NegativeFieldsMessage := "I campi numerici (quantità, " + "giacenza e prezzi) non " + "possono essere negativi."
  const NullTextMessage := "I campi Nome e Descrizione " + "del Prodotto non " + "possono essere null."

  /** What a stored product must satisfy: no negative number, no null text. */
  predicate ValidProduct(p: Product) {
    && p.quantity >= 0 && p.minStock >= 0
    && p.purchasePrice >= 0.0 && p.salePrice >= 0.0
    && p.name.Some? && p.description.Some?
  }

  /** `verifyObject`: the numeric check runs first, then the null check; an
      empty name or description passes. (A `null` product is dereferenced
      before it is checked, so callers must pass one.) */
  function Validate(p: Product): (r: Result<(), DaoError>)
    ensures r.Success? <==> ValidProduct(p)
    ensures r.Failure? && (p.quantity < 0 || p.minStock < 0 || p.purchasePrice < 0.0 || p.salePrice < 0.0) ==>
              r.error.message == NegativeFieldsMessage
    ensures r.Failure? && (p.name.None? || p.description.None?)
            && p.quantity >= 0 && p.minStock >= 0 && p.purchasePrice >= 0.0 && p.salePrice >= 0.0
            ==> r.error.message == NullTextMessage
  {
    if p.quantity < 0 || p.minStock < 0 || p.purchasePrice < 0.0 || p.salePrice < 0.0 then
      Failure(DaoError(NegativeFieldsMessage))
    else if p.name.None? || p.description.None? then
      Failure(DaoError(NullTextMessage))
    else
      Success(())
  }

  // ------------------------------------------------------------------ writes

  datatype Inserted = Inserted(id: int, store: Store)

  /** `insert`: validates, then appends the product under the next generated
      key (the prototype's own id is ignored) and returns that key. A name
      already stored violates the unique index. */
  function Insert(s: Store, p: Product): (r: Result<Inserted, DaoError>)
    ensures r.Success? <==> ValidProduct(p) && !HasName(s.products, p.name.value)
    ensures ValidProduct(p) && r.Failure? ==> r.error == DaoError(DuplicateNameMessage(p.name.value))
    ensures r.Success? ==>
              && r.value.id == s.nextProductId
              && r.value.store.products == s.products + [p.(id := r.value.id)]
              && r.value.store.movements == s.movements
              && r.value.store.nextMovementId == s.nextMovementId
    ensures r.Success? && WellFormed(s) ==>
              WellFormed(r.value.store) && r.value.id > 0 && !HasProduct(s.products, r.value.id)
  {
    if Validate(p).Failure? then Failure(Validate(p).error)
    else if HasName(s.products, p.name.value) then Failure(DaoError(DuplicateNameMessage(p.name.value)))
    else
      var id := s.nextProductId;
      var s' := s.(products := s.products + [p.(id := id)], nextProductId := id + 1);
      assert WellFormed(s) ==> WellFormed(s') by {
        if WellFormed(s) {
          var n, ps := |s.products|, s'.products;
          forall i | 0 <= i < |ps| ensures 0 < ps[i].id < s'.nextProductId && ps[i].name.Some? {
            if i < n {
              assert ps[i] == s.products[i];
            }
          }
          forall i, j | 0 <= i < |ps| && 0 <= j < |ps| && ProductKey(ps[i]) == ProductKey(ps[j])
            ensures i == j
          {
            if i < n && j < n {
              assert ProductKey(s.products[i]) == ProductKey(s.products[j]);
            }
          }
          forall i, j | 0 <= i < |ps| && 0 <= j < |ps| && ProductName(ps[i]) == ProductName(ps[j])
            ensures i == j
          {
            if i < n && j < n {
              assert ProductName(s.products[i]) == ProductName(s.products[j]);
            }
          }
          forall i | 0 <= i < |s'.movements| ensures HasProduct(ps, s'.movements[i].productId) {
            var k :| 0 <= k < n && s.products[k].id == s.movements[i].productId;
            assert ps[k] == s.products[k];
          }
        }
      }
      Success(Inserted(id, s'))
  }

  /** A row other than the one with key `id` already carries `name`. */
  predicate NameTakenByOther(ps: seq<Product>, id: int, name: string) {
    exists i :: 0 <= i < |ps| && ps[i].id != id && ps[i].name == Some(name)
  }

  function ReplaceById(ps: seq<Product>, p: Product): (r: seq<Product>)
    ensures |r| == |ps|
    ensures forall i :: 0 <= i < |ps| ==> r[i] == if ps[i].id == p.id then p else ps[i]
  {
    seq(|ps|, i requires 0 <= i < |ps| => if ps[i].id == p.id then p else ps[i])
  }

  /** `update`: validates, then overwrites all six data fields of the row
      with the product's key; every other row is left alone, and a key that
      is not stored changes nothing without raising an error. */
  function Update(s: Store, p: Product): (r: Result<Store, DaoError>)
    ensures r.Success? <==> (ValidProduct(p)
              && !(HasProduct(s.products, p.id) && NameTakenByOther(s.products, p.id, p.name.value)))
    ensures r.Success? ==>
              && |r.value.products| == |s.products|
              && (forall i :: 0 <= i < |s.products| && s.products[i].id == p.id ==> r.value.products[i] == p)
              && (forall i :: 0 <= i < |s.products| && s.products[i].id != p.id ==> r.value.products[i] == s.products[i])
              && r.value.movements == s.movements
    ensures ValidProduct(p) && !HasProduct(s.products, p.id) ==> r == Success(s)
    ensures r.Success? && WellFormed(s) ==> WellFormed(r.value)
  {
    if Validate(p).Failure? then Failure(Validate(p).error)
    else if HasProduct(s.products, p.id) && NameTakenByOther(s.products, p.id, p.name.value) then
      Failure(DaoError(DuplicateNameMessage(p.name.value)))
    else
      var ps := ReplaceById(s.products, p);
      assert !HasProduct(s.products, p.id) ==> ps == s.products;
      var s' := s.(products := ps);
      assert WellFormed(s) ==> WellFormed(s') by {
        if WellFormed(s) {
          assert forall i :: 0 <= i < |ps| ==> ps[i].id == s.products[i].id;
          forall i | 0 <= i < |s'.movements| ensures HasProduct(ps, s'.movements[i].productId) {
            var k :| 0 <= k < |s.products| && s.products[k].id == s.movements[i].productId;
            assert ps[k].id == s.products[k].id;
          }
          forall i, j | 0 <= i < |ps| && 0 <= j < |ps| && ProductKey(ps[i]) == ProductKey(ps[j])
            ensures i == j
          {
            assert ProductKey(s.products[i]) == ProductKey(s.products[j]);
          }
          forall i, j | 0 <= i < |ps| && 0 <= j < |ps| && ProductName(ps[i]) == ProductName(ps[j])
            ensures i == j
          {
            if ps[i].id == p.id && ps[j].id == p.id {
              assert ProductKey(s.products[i]) == ProductKey(s.products[j]);
            } else if ps[i].id != p.id && ps[j].id != p.id {
              assert ProductName(s.products[i]) == ProductName(s.products[j]);
            }
          }
        }
      }
      Success(s')
  }

  function OtherProduct(id: int): Product -> bool {
    (p: Product) => p.id != id
  }

  function OtherProductsMovement(id: int): MovementModel.Movement -> bool {
    (m: MovementModel.Movement) => m.productId != id
  }

  /** First step of `delete`: `DELETE FROM movimenti WHERE idProdotto = id`. */
  function DeleteMovementsOf(s: Store, id: int): (r: Store)
    ensures forall i :: 0 <= i < |r.movements| ==> r.movements[i].productId != id
    ensures forall m :: m in r.movements <==> m in s.movements && m.productId != id
    ensures r.movements == Filter(s.movements, OtherProductsMovement(id))
    ensures r.products == s.products
    ensures r.nextProductId == s.nextProductId && r.nextMovementId == s.nextMovementId
  {
    s.(movements := Filter(s.movements, OtherProductsMovement(id)))
  }

  /** Second step: `DELETE FROM prodotti WHERE idProdotto = id`, which the
      foreign key refuses while a movement still refers to the product. */
  function DeleteProductRow(s: Store, id: int): (r: Result<Store, DaoError>)
    ensures r.Failure? <==> exists i :: 0 <= i < |s.movements| && s.movements[i].productId == id
    ensures r.Failure? ==> r.error == DaoError(ParentRowMessage)
    ensures r.Success? ==> forall i :: 0 <= i < |r.value.products| ==> r.value.products[i].id != id
    ensures r.Success? ==> forall q :: q in r.value.products <==> q in s.products && q.id != id
    ensures r.Success? ==> r.value.products == Filter(s.products, OtherProduct(id))
    ensures r.Success? ==> r.value.movements == s.movements
    ensures r.Success? ==>
              r.value.nextProductId == s.nextProductId && r.value.nextMovementId == s.nextMovementId
  {
    if exists i :: 0 <= i < |s.movements| && s.movements[i].productId == id then
      Failure(DaoError(ParentRowMessage))
    else
      Success(s.(products := Filter(s.products, OtherProduct(id))))
  }

  const NullDeleteMessage := "In delete: il campo idProdotto non può essere null"

  /** `delete`: a `null` product is refused; otherwise the product's movements
      are removed first and the product second, which always succeeds (also
      when nothing matched) and leaves every other row in place. */
  function Delete(s: Store, p: Option<Product>): (r: Result<Store, DaoError>)
    ensures p.None? ==> r == Failure(DaoError(NullDeleteMessage))
    ensures p.Some? ==> r.Success?
    ensures p.Some? ==> r.value.products == Filter(s.products, OtherProduct(p.value.id))
    ensures p.Some? ==> r.value.movements == Filter(s.movements, OtherProductsMovement(p.value.id))
    ensures p.Some? ==> !HasProduct(r.value.products, p.value.id)
    ensures p.Some? ==> r.value.nextProductId == s.nextProductId && r.value.nextMovementId == s.nextMovementId
    ensures p.Some? && WellFormed(s) ==> WellFormed(r.value)
  {
    if p.None? then Failure(DaoError(NullDeleteMessage))
    else
      var id := p.value.id;
      var s1 := DeleteMovementsOf(s, id);
      var r := DeleteProductRow(s1, id);
      assert r.Success?;
      if WellFormed(s) then
        DeleteKeepsWellFormed(s, id);
        r
      else
        r
  }

  /** Removing a product together with its movements keeps the store well
      formed: no movement is left pointing at the removed row. */
  lemma DeleteKeepsWellFormed(s: Store, id: int)
    requires WellFormed(s)
    ensures WellFormed(s.(products := Filter(s.products, OtherProduct(id)),
                          movements := Filter(s.movements, OtherProductsMovement(id))))
  {
    var s2 := s.(products := Filter(s.products, OtherProduct(id)),
                 movements := Filter(s.movements, OtherProductsMovement(id)));
    FilterInjective(s.products, OtherProduct(id), ProductKey);
    FilterInjective(s.products, OtherProduct(id), ProductName);
    forall i | 0 <= i < |s2.movements| ensures HasProduct(s2.products, s2.movements[i].productId) {
      var m := s2.movements[i];
      assert m in s.movements;
      var j :| 0 <= j < |s.movements| && s.movements[j] == m;
      var k :| 0 <= k < |s.products| && s.products[k].id == m.productId;
      assert s.products[k] in s2.products;
    }
  }
}

=== FILE: sequences.dfy ===
/** Generic facts about sequences used by the table operations and the
    statistics: order-preserving filtering, key uniqueness and sums. */
module Sequences {

  /** The elements of `s` satisfying `keep`, in their original order (a
      `WHERE` clause over a table, or a `stream().filter`). */
  function Filter<T>(s: seq<T>, keep: T -> bool): (r: seq<T>)
    ensures |r| <= |s|
    ensures forall i :: 0 <= i < |r| ==> r[i] in s && keep(r[i])
    ensures forall i :: 0 <= i < |s| && keep(s[i]) ==> s[i] in r
    ensures multiset(r) <= multiset(s)
  {
    if s == [] then []
    else
      assert s == [s[0]] + s[1..];
      (if keep(s[0]) then [s[0]] else []) + Filter(s[1..], keep)
  }

  lemma {:induction false} FilterKeepsAll<T>(s: seq<T>, keep: T -> bool)
    requires forall i :: 0 <= i < |s| ==> keep(s[i])
    ensures Filter(s, keep) == s
  {
    if s != [] {
      FilterKeepsAll(s[1..], keep);
      assert s == [s[0]] + s[1..];
    }
  }

  lemma {:induction false} FilterAppend<T>(s: seq<T>, t: seq<T>, keep: T -> bool)
    ensures Filter(s + t, keep) == Filter(s, keep) + Filter(t, keep)
  {
    if s != [] {
      assert (s + t)[1..] == s[1..] + t;
      FilterAppend(s[1..], t, keep);
    } else {
      assert s + t == t;
    }
  }

  /** No two positions of `s` share a key. */
  predicate Injective<T, K(==)>(s: seq<T>, key: T -> K) {
    forall i, j :: 0 <= i < |s| && 0 <= j < |s| && key(s[i]) == key(s[j]) ==> i == j
  }

  lemma {:induction false} FilterInjective<T, K>(s: seq<T>, keep: T -> bool, key: T -> K)
    requires Injective(s, key)
    ensures Injective(Filter(s, keep), key)
  {
    if s != [] {
      var rest := Filter(s[1..], keep);
      assert Injective(s[1..], key) by {
        forall i, j | 0 <= i < |s| - 1 && 0 <= j < |s| - 1 && key(s[1..][i]) == key(s[1..][j])
          ensures i == j
        {
          assert key(s[i + 1]) == key(s[j + 1]);
        }
      }
      FilterInjective(s[1..], keep, key);
      if keep(s[0]) {
        forall x | x in rest ensures key(x) != key(s[0]) {
          var k :| 0 <= k < |s| - 1 && s[1..][k] == x;
          assert s[k + 1] == x;
        }
        var r := [s[0]] + rest;
        forall i, j | 0 <= i < |r| && 0 <= j < |r| && key(r[i]) == key(r[j]) ensures i == j {
          if i > 0 && j > 0 {
            assert key(rest[i - 1]) == key(rest[j - 1]);
          }
        }
      }
    }
  }

  function Sum(s: seq<int>): int {
    if s == [] then 0 else Sum(s[..|s| - 1]) + s[|s| - 1]
  }

  /** Adding `q` to one entry adds `q` to the total. */
  lemma {:induction false} SumUpdate(s: seq<int>, k: nat, q: int)
    requires k < |s|
    ensures Sum(s[k := s[k] + q]) == Sum(s) + q
  {
    var t := s[k := s[k] + q];
    if k < |s| - 1 {
      assert t[..|t| - 1] == s[..|s| - 1][k := s[k] + q];
      SumUpdate(s[..|s| - 1], k, q);
    } else {
      assert t[..|t| - 1] == s[..|s| - 1];
    }
  }

  lemma {:induction false} SumZeros(n: nat)
    ensures Sum(seq(n, i => 0)) == 0
  {
    if n > 0 {
      assert seq(n, i => 0)[..n - 1] == seq(n - 1, i => 0);
      SumZeros(n - 1);
    }
  }
}

=== FILE: statistics.dfy ===
/** `MovimentiStatisticsController`: the two aggregations behind the
    statistics charts. The daily view buckets the movements of the month
    before a reference date by day; the product view totals each listed
    product's movements. Kinds are matched ignoring case; only `CARICO`
    (inbound) and `SCARICO` (outbound) count. The charts themselves are not
    modelled: each view yields its labels and two aligned series. */
module Statistics {
  import opened Wrappers
  import opened Text
  import opened Calendar
  import opened Sequences
  import opened ProductModel
  import opened MovementModel
  import Database

  // ------------------------------------------------------------------ kinds

  /** `"CARICO".equalsIgnoreCase(tipo)`. */
  predicate IsInbound(kind: Option<string>) {
    kind.Some? && EqualsIgnoreCase("CARICO", kind.value)
  }

  /** `"SCARICO".equalsIgnoreCase(tipo)`. */
  predicate IsOutbound(kind: Option<string>) {
    kind.Some? && EqualsIgnoreCase("SCARICO", kind.value)
  }

  /** The series a kind feeds: the inbound one (`inbound`) or the outbound
      one. The two tests are tried in that order, and no kind passes both. */
  predicate Feeds(kind: Option<string>, inbound: bool) {
    if inbound then IsInbound(kind) else !IsInbound(kind) && IsOutbound(kind)
  }

  lemma KindsAreExclusive(kind: Option<string>)
    ensures !(IsInbound(kind) && IsOutbound(kind))
    ensures Feeds(kind, false) <==> IsOutbound(kind)
  {
  }

  /** Java upper-cases the long s to `S`, so `"ſCARICO"` is an outbound kind. */
  lemma LongSKindIsOutbound()
    ensures Feeds(Some("ſCARICO"), false) && !Feeds(Some("ſCARICO"), true)
  {
    assert FoldCase("SCARICO"[0]) == FoldCase("ſCARICO"[0]);
    assert forall i :: 0 <= i < 7 ==> FoldCase("SCARICO"[i]) == FoldCase("ſCARICO"[i]);
  }

  // ------------------------------------------------------------ daily view

  /** The month shown: the one before the reference date, today standing in
      for a missing reference. Its day is irrelevant; only month and year
      are used. */
  function TargetMonth(reference: Option<Date>, today: Date): (t: Date)
    ensures var d := reference.GetOr(today);
            && (d.month > 1 ==> t.year == d.year && t.month == d.month - 1)
            && (d.month == 1 ==> t.year == d.year - 1 && t.month == 12)
  {
    MinusOneMonth(reference.GetOr(today))
  }

  function DaysIn(t: Date): (n: nat)
    ensures 28 <= n <= 31
  {
    LengthOfMonth(t.year, t.month)
  }

  /** The movement's date falls in the target month. */
  predicate InMonth(m: Movement, t: Date)
    requires m.date.Some?
  {
    m.date.value.year == t.year && m.date.value.month == t.month
  }

  /** A movement of the target month lands in a bucket that exists. */
  lemma DayInRange(m: Movement, t: Date)
    requires m.date.Some? && InMonth(m, t)
    ensures 0 <= m.date.value.day - 1 < DaysIn(t)
  {
  }

  /** What `m` adds to the bucket of `day` in the chosen series. */
  function DayShare(m: Movement, t: Date, day: int, inbound: bool): int
    requires m.date.Some?
  {
    if InMonth(m, t) && m.date.value.day == day && Feeds(m.kind, inbound) then m.quantity else 0
  }

  /** What `m` adds to the chosen series as a whole. */
  function MonthShare(m: Movement, t: Date, inbound: bool): int
    requires m.date.Some?
  {
    if InMonth(m, t) && Feeds(m.kind, inbound) then m.quantity else 0
  }

  /** Reference total of one bucket: the quantities of the movements of that
      day of the target month that feed the series. */
  function DayTotal(ms: seq<Movement>, t: Date, day: int, inbound: bool): int
    requires Database.DatesRecorded(ms)
  {
    if ms == [] then 0
    else DayTotal(ms[..|ms| - 1], t, day, inbound) + DayShare(ms[|ms| - 1], t, day, inbound)
  }

  /** Reference total of a series: every movement of the target month that
      feeds it, whatever its day. */
  function MonthTotal(ms: seq<Movement>, t: Date, inbound: bool): int
    requires Database.DatesRecorded(ms)
  {
    if ms == [] then 0
    else MonthTotal(ms[..|ms| - 1], t, inbound) + MonthShare(ms[|ms| - 1], t, inbound)
  }

  /** `String.valueOf(i)` for every day `i` of a month of `n` days. */
  method DayLabels(n: nat) returns (labels: seq<string>)
    ensures |labels| == n
    ensures forall i :: 0 <= i < n ==> labels[i] == NatToString(i + 1)
    ensures forall i :: 0 <= i < n ==> IsDigits(labels[i]) && ParseNat(labels[i]) == i + 1
  {
    labels := [];
    var i := 1;
    while i <= n
      invariant 1 <= i <= n + 1
      invariant |labels| == i - 1
      invariant forall k :: 0 <= k < i - 1 ==> labels[k] == NatToString(k + 1)
      invariant forall k :: 0 <= k < i - 1 ==> ParseNat(labels[k]) == k + 1
    {
      ParseNatToString(i);
      labels := labels + [NatToString(i)];
      i := i + 1;
    }
  }

  /** The bucket series after one movement: its day's bucket grows by its
      quantity when it belongs to the month and feeds the series. */
  function Bump(buckets: seq<int>, m: Movement, t: Date, inbound: bool): (r: seq<int>)
    requires m.date.Some? && |buckets| == DaysIn(t)
    ensures |r| == |buckets|
  {
    if InMonth(m, t) && Feeds(m.kind, inbound) then
      DayInRange(m, t);
      buckets[m.date.value.day - 1 := buckets[m.date.value.day - 1] + m.quantity]
    else buckets
  }

  /** Bumping moves every bucket from its reference total over `init` to
      its reference total over `init + [m]`. */
  lemma BumpBuckets(init: seq<Movement>, m: Movement, t: Date, inbound: bool, buckets: seq<int>)
    requires Database.DatesRecorded(init) && m.date.Some?
    requires |buckets| == DaysIn(t)
    requires forall d :: 0 <= d < |buckets| ==> buckets[d] == DayTotal(init, t, d + 1, inbound)
    ensures Database.DatesRecorded(init + [m])
    ensures forall d :: 0 <= d < |buckets| ==> Bump(buckets, m, t, inbound)[d] == DayTotal(init + [m], t, d + 1, inbound)
  {
    var ms := init + [m];
    assert ms[..|ms| - 1] == init && ms[|ms| - 1] == m;
    var r := Bump(buckets, m, t, inbound);
    forall d | 0 <= d < |buckets| ensures r[d] == DayTotal(ms, t, d + 1, inbound) {
      assert DayTotal(ms, t, d + 1, inbound) == buckets[d] + DayShare(m, t, d + 1, inbound);
    }
  }

  /** Bumping adds exactly the movement's share of the month to the series
      total. */
  lemma BumpSum(init: seq<Movement>, m: Movement, t: Date, inbound: bool, buckets: seq<int>)
    requires Database.DatesRecorded(init) && m.date.Some?
    requires |buckets| == DaysIn(t)
    requires Sum(buckets) == MonthTotal(init, t, inbound)
    ensures Database.DatesRecorded(init + [m])
    ensures Sum(Bump(buckets, m, t, inbound)) == MonthTotal(init + [m], t, inbound)
  {
    var ms := init + [m];
    assert ms[..|ms| - 1] == init && ms[|ms| - 1] == m;
    if InMonth(m, t) && Feeds(m.kind, inbound) {
      DayInRange(m, t);
      SumUpdate(buckets, m.date.value.day - 1, m.quantity);
    }
  }

  /** The bucketing loop of `setMovimentiData`: one pass over the movements,
      adding each target-month movement's quantity to the bucket of its day
      in the series its kind feeds. Every bucket ends up equal to its
      reference total, and each series sums to the total of its kind over
      the whole month: no movement is lost or counted twice. */
  method DailyTotals(ms: seq<Movement>, t: Date) returns (inbound: seq<int>, outbound: seq<int>)
    requires Database.DatesRecorded(ms)
    ensures |inbound| == DaysIn(t) && |outbound| == DaysIn(t)
    ensures forall d :: 0 <= d < DaysIn(t) ==> inbound[d] == DayTotal(ms, t, d + 1, true)
    ensures forall d :: 0 <= d < DaysIn(t) ==> outbound[d] == DayTotal(ms, t, d + 1, false)
    ensures Sum(inbound) == MonthTotal(ms, t, true)
    ensures Sum(outbound) == MonthTotal(ms, t, false)
  {
    var n := DaysIn(t);
    inbound := seq(n, i => 0);
    outbound := seq(n, i => 0);
    SumZeros(n);
    var k := 0;
    while k < |ms|
      invariant 0 <= k <= |ms|
      invariant |inbound| == n && |outbound| == n
      invariant forall d :: 0 <= d < n ==> inbound[d] == DayTotal(ms[..k], t, d + 1, true)
      invariant forall d :: 0 <= d < n ==> outbound[d] == DayTotal(ms[..k], t, d + 1, false)
      invariant Sum(inbound) == MonthTotal(ms[..k], t, true)
      invariant Sum(outbound) == MonthTotal(ms[..k], t, false)
    {
      var m := ms[k];
      assert ms[..k + 1] == ms[..k] + [m];
      BumpBuckets(ms[..k], m, t, true, inbound);
      BumpBuckets(ms[..k], m, t, false, outbound);
      BumpSum(ms[..k], m, t, true, inbound);
      BumpSum(ms[..k], m, t, false, outbound);
      if InMonth(m, t) {
        var day := m.date.value.day - 1;
        DayInRange(m, t);
        if IsInbound(m.kind) {
          inbound := inbound[day := inbound[day] + m.quantity];
        } else if IsOutbound(m.kind) {
          outbound := outbound[day := outbound[day] + m.quantity];
        }
      }
      k := k + 1;
    }
    assert ms[..|ms|] == ms;
  }

  /** The daily view: the labels `"1"` to `"N"` and the two series, all of
      the target month's length. */
  method MonthlyView(ms: seq<Movement>, reference: Option<Date>, today: Date)
    returns (labels: seq<string>, inbound: seq<int>, outbound: seq<int>)
    requires Database.DatesRecorded(ms)
    ensures var t := TargetMonth(reference, today);
            && |labels| == DaysIn(t) && |inbound| == |labels| && |outbound| == |labels|
            && (forall i :: 0 <= i < |labels| ==> IsDigits(labels[i]) && ParseNat(labels[i]) == i + 1)
            && Sum(inbound) == MonthTotal(ms, t, true)
            && Sum(outbound) == MonthTotal(ms, t, false)
  {
    var t := TargetMonth(reference, today);
    labels := DayLabels(DaysIn(t));
    inbound, outbound := DailyTotals(ms, t);
  }

  // ---------------------------------------------------------- product view

  /** What `m` adds to the total of product `id` in the chosen series. */
  function ProductShare(m: Movement, id: int, inbound: bool): int {
    if m.productId == id && Feeds(m.kind, inbound) then m.quantity else 0
  }

  /** Reference total of one product: the quantities of its movements that
      feed the series; `0` for a product without movements. */
  function ProductTotal(ms: seq<Movement>, id: int, inbound: bool): int {
    if ms == [] then 0
    else ProductTotal(ms[..|ms| - 1], id, inbound) + ProductShare(ms[|ms| - 1], id, inbound)
  }

  /** A product none of whose movements are listed totals `0`. */
  lemma {:induction false} ProductWithoutMovements(ms: seq<Movement>, id: int, inbound: bool)
    requires forall i :: 0 <= i < |ms| ==> ms[i].productId != id
    ensures ProductTotal(ms, id, inbound) == 0
  {
    if ms != [] {
      ProductWithoutMovements(ms[..|ms| - 1], id, inbound);
    }
  }

  /** The inner loop of `setProdottiData` for one product. */
  method TotalFor(ms: seq<Movement>, id: int) returns (inbound: int, outbound: int)
    ensures inbound == ProductTotal(ms, id, true)
    ensures outbound == ProductTotal(ms, id, false)
  {
    inbound, outbound := 0, 0;
    var k := 0;
    while k < |ms|
      invariant 0 <= k <= |ms|
      invariant inbound == ProductTotal(ms[..k], id, true)
      invariant outbound == ProductTotal(ms[..k], id, false)
    {
      var m := ms[k];
      assert ms[..k + 1][..k] == ms[..k];
      if m.productId == id {
        if IsInbound(m.kind) {
          inbound := inbound + m.quantity;
        } else if IsOutbound(m.kind) {
          outbound := outbound + m.quantity;
        }
      }
      k := k + 1;
    }
    assert ms[..|ms|] == ms;
  }

  /** `setProdottiData`: one label and one total per listed product, in list
      order. */
  method ProductTotals(ps: seq<Product>, ms: seq<Movement>)
    returns (names: seq<Option<string>>, inbound: seq<int>, outbound: seq<int>)
    ensures |names| == |ps| && |inbound| == |ps| && |outbound| == |ps|
    ensures forall i :: 0 <= i < |ps| ==> names[i] == ps[i].name
    ensures forall i :: 0 <= i < |ps| ==> inbound[i] == ProductTotal(ms, ps[i].id, true)
    ensures forall i :: 0 <= i < |ps| ==> outbound[i] == ProductTotal(ms, ps[i].id, false)
  {
    names, inbound, outbound := [], [], [];
    var index := 0;
    while index < |ps|
      invariant 0 <= index <= |ps|
      invariant |names| == index && |inbound| == index && |outbound| == index
      invariant forall i :: 0 <= i < index ==> names[i] == ps[i].name
      invariant forall i :: 0 <= i < index ==> inbound[i] == ProductTotal(ms, ps[i].id, true)
      invariant forall i :: 0 <= i < index ==> outbound[i] == ProductTotal(ms, ps[i].id, false)
    {
      var a, b := TotalFor(ms, ps[index].id);
      names, inbound, outbound := names + [ps[index].name], inbound + [a], outbound + [b];
      index := index + 1;
    }
  }

  /** The per-product totals as a sequence. */
  function Totals(ps: seq<Product>, ms: seq<Movement>, inbound: bool): (r: seq<int>)
    ensures |r| == |ps|
    ensures forall i :: 0 <= i < |ps| ==> r[i] == ProductTotal(ms, ps[i].id, inbound)
  {
    seq(|ps|, i requires 0 <= i < |ps| => ProductTotal(ms, ps[i].id, inbound))
  }

  /** The total of the series over the movements of listed products only. */
  function ListedTotal(ps: seq<Product>, ms: seq<Movement>, inbound: bool): int {
    if ms == [] then 0
    else
      var m := ms[|ms| - 1];
      ListedTotal(ps, ms[..|ms| - 1], inbound)
      + (if Database.HasProduct(ps, m.productId) && Feeds(m.kind, inbound) then m.quantity else 0)
  }

  /** With distinct product ids the per-product totals add up to the total
      of every movement of a listed product: each such movement is counted
      for exactly one product, and movements of unlisted products for none. */
  lemma {:induction false} TotalsConserve(ps: seq<Product>, ms: seq<Movement>, inbound: bool)
    requires Injective(ps, Database.ProductKey)
    ensures Sum(Totals(ps, ms, inbound)) == ListedTotal(ps, ms, inbound)
  {
    if ms == [] {
      assert Totals(ps, ms, inbound) == seq(|ps|, i => 0);
      SumZeros(|ps|);
    } else {
      var init, m := ms[..|ms| - 1], ms[|ms| - 1];
      TotalsConserve(ps, init, inbound);
      var before, after := Totals(ps, init, inbound), Totals(ps, ms, inbound);
      if Database.HasProduct(ps, m.productId) && Feeds(m.kind, inbound) {
        var k :| 0 <= k < |ps| && ps[k].id == m.productId;
        forall i | 0 <= i < |ps| ensures after[i] == before[k := before[k] + m.quantity][i] {
          if i != k {
            assert Database.ProductKey(ps[i]) != Database.ProductKey(ps[k]);
          }
        }
        assert after == before[k := before[k] + m.quantity];
        SumUpdate(before, k, m.quantity);
      } else {
        assert after == before;
      }
    }
  }
}

=== FILE: text.dfy ===
/** The handful of `java.lang.String` operations the warehouse code relies on:
    `trim`, `startsWith` (as SQL `LIKE 'x%'`), `contains`, `replace` of one
    character, `equalsIgnoreCase`, the regular expression `\d+`,
    `Integer.parseInt` and `String.valueOf(int)`. */
module Text {
  import Sequences

  // ---------------------------------------------------------------- trimming

  /** `String.trim` removes every leading and trailing character whose code is
      at most U+0020 (spaces and all control characters). */
  predicate IsTrimmed(c: char) {
    c <= ' '
  }

  predicate IsBlank(s: string) {
    forall i :: 0 <= i < |s| ==> IsTrimmed(s[i])
  }

  /** Where the text proper starts: the number of leading trimmed
      characters. */
  function TextStart(s: string): (i: nat)
    ensures i <= |s|
    ensures forall k :: 0 <= k < i ==> IsTrimmed(s[k])
    ensures i < |s| ==> !IsTrimmed(s[i])
  {
    StartFrom(s, 0)
  }

  function StartFrom(s: string, i: nat): (r: nat)
    requires i <= |s| && forall k :: 0 <= k < i ==> IsTrimmed(s[k])
    ensures i <= r <= |s|
    ensures forall k :: 0 <= k < r ==> IsTrimmed(s[k])
    ensures r < |s| ==> !IsTrimmed(s[r])
    decreases |s| - i
  {
    if i == |s| || !IsTrimmed(s[i]) then i else StartFrom(s, i + 1)
  }

  /** Where the text proper ends, looking back from `j` but not before `i`:
      every character from the result to the end is trimmed. */
  function EndFrom(s: string, i: nat, j: nat): (r: nat)
    requires i <= j <= |s| && forall k :: j <= k < |s| ==> IsTrimmed(s[k])
    ensures i <= r <= j
    ensures forall k :: r <= k < |s| ==> IsTrimmed(s[k])
    ensures r > i ==> !IsTrimmed(s[r - 1])
    decreases j
  {
    if j == i || !IsTrimmed(s[j - 1]) then j else EndFrom(s, i, j - 1)
  }

  /** `String.trim`: the slice of `s` that starts after the leading trimmed
      characters and ends before the trailing ones; neither of its ends is
      itself trimmed. */
  function Trim(s: string): (r: string)
    ensures var i := TextStart(s);
            && i + |r| <= |s| && r == s[i..i + |r|]
            && (forall k :: 0 <= k < i ==> IsTrimmed(s[k]))
            && (forall k :: i + |r| <= k < |s| ==> IsTrimmed(s[k]))
    ensures r == [] || (!IsTrimmed(r[0]) && !IsTrimmed(r[|r| - 1]))
  {
    var i := TextStart(s);
    var j := EndFrom(s, i, |s|);
    assert i < j ==> s[i..j][0] == s[i] && s[i..j][j - i - 1] == s[j - 1];
    s[i..j]
  }

  /** A text that neither starts nor ends with a trimmed character is its
      own trim; in particular trimming twice is trimming once. */
  lemma TrimUntrimmed(s: string)
    requires s == [] || (!IsTrimmed(s[0]) && !IsTrimmed(s[|s| - 1]))
    ensures Trim(s) == s
  {
    assert TextStart(s) == 0;
    assert EndFrom(s, 0, |s|) == |s|;
    assert s[0..|s|] == s;
  }

  /** `s.trim().isEmpty()` holds exactly for the blank strings. */
  lemma {:induction false} TrimEmptyIffBlank(s: string)
    ensures Trim(s) == [] <==> IsBlank(s)
  {
    var r := Trim(s);
    var i := TextStart(s);
    var j := i + |r|;
    if r == [] {
      forall k | 0 <= k < |s| ensures IsTrimmed(s[k]) {
        if i <= k < j {
          assert false;
        }
      }
    } else {
      assert r[0] == s[i] && !IsTrimmed(s[i]);
    }
  }

  // ---------------------------------------------------------- substrings

  /** `s.startsWith(p)`. */
  predicate StartsWith(s: string, p: string) {
    |p| <= |s| && s[..|p|] == p
  }

  /** `s.contains(p)`. */
  predicate Contains(s: string, p: string) {
    exists i :: 0 <= i <= |s| && StartsWith(s[i..], p)
  }

  /** `s.replace(String.valueOf(c), "")`: every occurrence of `c` removed,
      the other characters kept in order. */
  function RemoveChar(s: string, c: char): (r: string)
    ensures c !in r
    ensures |r| <= |s|
    ensures forall x :: x != c ==> multiset(r)[x] == multiset(s)[x]
  {
    if s == [] then []
    else
      assert s == [s[0]] + s[1..];
      if s[0] == c then RemoveChar(s[1..], c) else [s[0]] + RemoveChar(s[1..], c)
  }

  /** Removal works piece by piece: the characters kept from `a + b` are
      those kept from `a` followed by those kept from `b`. */
  lemma {:induction false} RemoveCharAppend(a: string, b: string, c: char)
    ensures RemoveChar(a + b, c) == RemoveChar(a, c) + RemoveChar(b, c)
  {
    if a == [] {
      assert a + b == b;
    } else {
      assert (a + b)[0] == a[0] && (a + b)[1..] == a[1..] + b;
      RemoveCharAppend(a[1..], b, c);
    }
  }

  function OtherThan(c: char): char -> bool {
    (x: char) => x != c
  }

  /** Removing `c` keeps exactly the other characters, in their order: it
      is the filter of `s` by "differs from `c`". */
  lemma {:induction false} RemoveCharIsFilter(s: string, c: char)
    ensures RemoveChar(s, c) == Sequences.Filter(s, OtherThan(c))
  {
    if s != [] {
      RemoveCharIsFilter(s[1..], c);
    }
  }

  lemma {:induction false} RemoveCharUnchangedIffAbsent(s: string, c: char)
    ensures RemoveChar(s, c) == s <==> c !in s
  {
    if s != [] {
      RemoveCharUnchangedIffAbsent(s[1..], c);
      if s[0] == c {
        assert |RemoveChar(s, c)| < |s|;
      } else {
        assert s == [s[0]] + s[1..];
      }
    }
  }

  // ------------------------------------------------------------- case

  /** Case folding as `equalsIgnoreCase` applies it (upper case, then lower
      case of that) to the letters this model distinguishes: ASCII letters,
      the Latin-1 letters with an upper/lower pair, and every other
      character Java pairs with one of these: the dotted capital I and the
      dotless small i (`i`), the long s (`s`), the Kelvin sign (`k`), the
      Angstrom sign (`å`) and the capital Y with diaeresis (`ÿ`). */
  function FoldCase(c: char): char {
    if 'A' <= c <= 'Z' then (c as int + 32) as char
    else if 'À' <= c <= 'Þ' && c != '×' then (c as int + 32) as char
    else if c == 'İ' || c == 'ı' then 'i'
    else if c == 'ſ' then 's'
    else if c == '\U{212A}' then 'k'
    else if c == '\U{212B}' then 'å'
    else if c == 'Ÿ' then 'ÿ'
    else c
  }

  /** The characters that fold onto an ASCII letter: its two cases, plus
      `İ`/`ı` for `i`, the long s for `s` and the Kelvin sign for `k`. So a
      comparison with an ASCII constant matches exactly the texts Java's
      `equalsIgnoreCase` matches. */
  lemma FoldsToAsciiLetter(c: char, l: char)
    requires 'a' <= l <= 'z'
    ensures FoldCase(c) == l <==>
              || c == l || c as int == l as int - 32
              || (l == 'i' && (c == 'İ' || c == 'ı'))
              || (l == 's' && c == 'ſ')
              || (l == 'k' && c == '\U{212A}')
  {
  }

  /** `x` may stand for the ASCII character `c` under `equalsIgnoreCase`:
      `c` itself, its other ASCII case, or one of the non-ASCII letters Java
      pairs with it. */
  predicate CaseVariant(x: char, c: char) {
    || x == c
    || ('a' <= c <= 'z' && x as int == c as int - 32)
    || ('A' <= c <= 'Z' && x as int == c as int + 32)
    || ((c == 'i' || c == 'I') && (x == 'İ' || x == 'ı'))
    || ((c == 's' || c == 'S') && x == 'ſ')
    || ((c == 'k' || c == 'K') && x == '\U{212A}')
  }

  /** Against an ASCII character, folding to the same character means being
      one of its case variants. */
  lemma SameFoldIffCaseVariant(x: char, c: char)
    requires c as int < 128
    ensures FoldCase(x) == FoldCase(c) <==> CaseVariant(x, c)
  {
    if 'A' <= c <= 'Z' || 'a' <= c <= 'z' {
      FoldsToAsciiLetter(x, FoldCase(c));
    }
  }

  predicate EqualsIgnoreCase(a: string, b: string) {
    |a| == |b| && forall i :: 0 <= i < |a| ==> FoldCase(a[i]) == FoldCase(b[i])
  }

  // ------------------------------------------------------------- digits

  predicate IsDigit(c: char) {
    '0' <= c <= '9'
  }

  /** The regular expression `\d+` (Java's `\d` is the ASCII class `[0-9]`). */
  predicate IsDigits(s: string) {
    |s| > 0 && forall i :: 0 <= i < |s| ==> IsDigit(s[i])
  }

  function DigitValue(c: char): (d: nat)
    requires IsDigit(c)
    ensures d < 10
  {
    c as int - '0' as int
  }

  function DigitChar(d: nat): (c: char)
    requires d < 10
    ensures IsDigit(c) && DigitValue(c) == d
  {
    ('0' as int + d) as char
  }

  /** `Integer.parseInt` on a string of decimal digits (the 32-bit overflow
      is outside the model). */
  function ParseNat(s: string): nat
    requires forall i :: 0 <= i < |s| ==> IsDigit(s[i])
  {
    if s == [] then 0 else 10 * ParseNat(s[..|s| - 1]) + DigitValue(s[|s| - 1])
  }

  /** `String.valueOf(n)` for a non-negative `int`: decimal, no leading zero. */
  function NatToString(n: nat): (r: string)
    ensures IsDigits(r)
    ensures r[0] == '0' ==> n == 0
    ensures n < 100 ==> |r| <= 2
    ensures n < 10000 ==> |r| <= 4
  {
    if n < 10 then [DigitChar(n)] else NatToString(n / 10) + [DigitChar(n % 10)]
  }

  /** `String.valueOf(i)` for any `int`. */
  function IntToString(i: int): (r: string)
    ensures |r| > 0
    ensures forall k :: 0 <= k < |r| ==> IsDigit(r[k]) || (k == 0 && r[k] == '-')
  {
    if i < 0 then "-" + NatToString(-i) else NatToString(i)
  }

  /** Printing then parsing a count gives it back. */
  lemma {:induction false} ParseNatToString(n: nat)
    ensures ParseNat(NatToString(n)) == n
  {
    if n >= 10 {
      var s := NatToString(n);
      assert s[..|s| - 1] == NatToString(n / 10);
      ParseNatToString(n / 10);
    }
  }

  /** A positive parse needs a non-zero digit somewhere. */
  lemma {:induction false} ParseNatPositiveIffNonZeroDigit(s: string)
    requires forall i :: 0 <= i < |s| ==> IsDigit(s[i])
    ensures ParseNat(s) > 0 <==> exists i :: 0 <= i < |s| && s[i] != '0'
  {
    if s != [] {
      var t := s[..|s| - 1];
      ParseNatPositiveIffNonZeroDigit(t);
      if ParseNat(s) > 0 && s[|s| - 1] == '0' {
        var i :| 0 <= i < |t| && t[i] != '0';
        assert s[i] != '0';
      }
      if s[|s| - 1] == '0' {
        if i :| 0 <= i < |s| && s[i] != '0' {
          assert t[i] != '0';
        }
      }
    }
  }
}

=== FILE: wrappers.dfy ===
/** Nullable references and checked exceptions of the warehouse application,
    as values. `None` stands for Java's `null`; `Failure` for a thrown exception. */
module Wrappers {

  datatype Option<+T> = None | Some(value: T) {

    /** The wrapped value, or `default` for a missing one. */
    function GetOr(default: T): T {
      match this
      case Some(v) => v
      case None => default
    }
  }

  datatype Result<+T, +E> = Success(value: T) | Failure(error: E) {

    predicate IsFailure() {
      Failure?
    }

    function PropagateFailure<U>(): Result<U, E>
      requires Failure?
    {
      Failure(error)
    }

    function Extract(): T
      requires Success?
    {
      value
    }
  }
}
